=== FILE: README.md ===
# WalletLink / wallet SDK core, modelled in Dafny

This project models four small pieces of the WalletLink browser SDK and
proves what they promise.

- **Session persistence** (`js/src/Session.ts`), module `Session`. A session
  is an id, a secret, a `linked` flag and a key derived from the id and the
  secret. The key is the hash of `id + ", " + secret + " WalletLink"`. `load`,
  `save`, `clear` and the `linked` setter read and write a string-keyed store,
  modelled as a `map<string, string>` that every writing operation returns
  anew. The cross-tab id-change stream is a pure function over a finite
  sequence of storage events.
- **The smart-contract-wallet connector**
  (`packages/wallet-sdk/src/connector/scw/SCWConnector.ts`), module
  `ScwConnector`. `handshake` and `request` are functions from the key
  storage, a time/id stamp and the popup's answer to a `Step`. A step holds
  the outcome (a value or what was thrown), the new key storage, and the
  trace of effects in order: connect, encrypt, send, store the peer key,
  decrypt. Key export/import, the shared-secret lookup, encryption and
  decryption are functions supplied in a `Crypto` record.
- **Message envelopes**
  (`packages/wallet-sdk/src/relay/scw/type/MessageEnvelope.ts`), module
  `MessageEnvelope`. The request/response envelope unions are datatypes. A
  message on the wire is the map from field names to JSON values, so the
  structural test `'requestId' in message` is stated as written.
- **String and number helpers** whose behaviour
  `packages/wallet-sdk/src/core/util.test.ts` fixes. Module `HexUtil` holds
  the hex-prefix, hex-string, address, integer and `range` helpers. Module
  `QrUrl` holds `createQrUrl`, with percent-encoding per section 2.1 of
  RFC 3986, a reader for the query it builds, and the proof that the link
  always reads back to its five fields.

`Optional` holds the `Option`/`Result` wrappers; a `Failure` is what the
JavaScript code throws. `JsonValues` holds the opaque JSON payloads.

A handshake whose answer fails to decrypt leaves the peer key stored,
because the key is stored (SCWConnector.ts lines 62-63) before the answer is
decrypted (line 65). `ScwConnector.HandshakeStoresSenderKeyFirst` and the
contract of `ScwConnector.DoHandshake` state this.

## Model

| member | source | states |
|---|---|---|
| Session.New | js/src/Session.ts:21-36 | The constructed session is valid: its key is derived from its id and secret, and both are non-empty. A truthy id or secret is kept verbatim; otherwise the random hex value is used. `linked` is true exactly when `true` was passed. |
| Session.KeyMaterial | js/src/Session.ts:31-34 | The hashed string is the id, then `, `, then the secret, then ` WalletLink`, and nothing else. `Session.DeriveKey` hashes exactly this string. |
| Session.KeyDeterministic | js/src/Session.ts:31-34 | Two sessions with derived keys and the same id and secret have the same key. |
| Session.KeyMaterialInjective | js/src/Session.ts:31-34 | When neither id contains a comma, equal key material means equal id and equal secret. Hex ids never contain a comma. |
| Session.KeyMaterialAmbiguous | js/src/Session.ts:31-34 | Without the no-comma condition, two different (id, secret) pairs share key material, so the hash input alone does not determine the pair. |
| Session.Load | js/src/Session.ts:38-48 | A session is returned exactly when a truthy id and a truthy secret are stored. It carries the stored id and secret and a derived key. It is linked exactly when the stored flag is `"1"`. |
| Session.LoadIsConstructor | js/src/Session.ts:38-48 | A loaded session is the one the constructor builds from the stored values, whatever randomness the constructor is given. |
| Session.Clear | js/src/Session.ts:50-54 | The three session keys are absent afterwards. Every other entry is kept with its value. |
| Session.LoadAfterClear | js/src/Session.ts:50-54 | `load` after `clear` returns nothing, on any store. |
| Session.PersistLinked | js/src/Session.ts:97-99 | `session:linked` holds `"1"` or `"0"`, and holds `"1"` exactly when the session is linked. No other entry changes. |
| Session.Save | js/src/Session.ts:90-99 | Id and secret are stored under their keys. The flag is stored as `"1"` for a linked session and `"0"` otherwise. Every other entry is unchanged. |
| Session.LoadAfterSave | js/src/Session.ts:90-99 | For a valid session, `load` after `save` gives back the same session: id, secret, key and flag. |
| Session.SetLinked | js/src/Session.ts:85-99 | The flag takes the new value while id, secret and key are unchanged. Only `session:linked` is written: `"1"` when the new value is true, `"0"` when it is false. |
| Session.LoadAfterSetLinked | js/src/Session.ts:85-99 | After saving, setting `linked` and loading, the result is the updated session. |
| Session.NullIfEmpty | js/src/Session.ts:62-65 | The result is null exactly when the value is absent or empty; otherwise the value is kept. |
| Session.IdChanges | js/src/Session.ts:56-67 | The stream has no more elements than the events, and never carries an empty string as old or new value. |
| Session.IdChangesAppend | js/src/Session.ts:56-67 | The stream of concatenated event sequences is the concatenation of their streams, so it is computed event by event. |
| Session.IdChangesSound | js/src/Session.ts:60-65 | Every element of the stream is the mapped form of some event keyed `session:id`. |
| Session.IdChangesComplete | js/src/Session.ts:60-65 | Every event keyed `session:id` appears, mapped, in the stream. |
| MessageEnvelope.ParseRelay | packages/wallet-sdk/src/relay/scw/type/MessageEnvelope.ts:25 | A relay name is accepted exactly when it is `scw`, `walletlink` or `extension`, and the parsed relay has that name. |
| MessageEnvelope.RelayNameRoundTrip | packages/wallet-sdk/src/relay/scw/type/MessageEnvelope.ts:25 | Every relay's name parses back to that relay. |
| MessageEnvelope.RequestMessage | packages/wallet-sdk/src/relay/scw/type/MessageEnvelope.ts:7-16 | The `type` field is `selectRelayType` or `web3Request` according to the variant, and `id` is the envelope's id. A `web3Request` also carries its `content`. The message has exactly these fields, so no `requestId`. |
| MessageEnvelope.ResponseMessage | packages/wallet-sdk/src/relay/scw/type/MessageEnvelope.ts:20-32 | Both response variants carry a type, their own id and the `requestId` they answer. |
| MessageEnvelope.PopupReadyMessage | packages/wallet-sdk/src/relay/scw/type/MessageEnvelope.ts:18 | The ready signal is the message whose only field is `type`, set to `popupReadyForRequest`. |
| MessageEnvelope.IsResponseEnvelope | packages/wallet-sdk/src/relay/scw/type/MessageEnvelope.ts:34-36 | A message is classified as a response exactly when it has a `requestId` field, whatever its value and other fields. |
| MessageEnvelope.ParseResponseEnvelope | packages/wallet-sdk/src/relay/scw/type/MessageEnvelope.ts:20-32 | A message accepted as a response envelope is exactly the message that envelope is sent as. |
| MessageEnvelope.ResponseRoundTrip | packages/wallet-sdk/src/relay/scw/type/MessageEnvelope.ts:20-32 | Every response envelope is read back from its message unchanged. |
| MessageEnvelope.ResponsesAreClassified | packages/wallet-sdk/src/relay/scw/type/MessageEnvelope.ts:20-36 | `isResponseEnvelope` holds for both `relaySelected` and `web3Response`. |
| MessageEnvelope.RequestsAreNotClassified | packages/wallet-sdk/src/relay/scw/type/MessageEnvelope.ts:7-36 | `isResponseEnvelope` fails for both `selectRelayType` and `web3Request`. |
| MessageEnvelope.PopupReadyIsNotResponse | packages/wallet-sdk/src/relay/scw/type/MessageEnvelope.ts:18-36 | `POPUP_READY_MESSAGE` is not classified as a response. |
| MessageEnvelope.WellFormedResponsesPassGuard | packages/wallet-sdk/src/relay/scw/type/MessageEnvelope.ts:34-36 | Every message that reads as a response envelope passes the guard. |
| MessageEnvelope.GuardIsStructural | packages/wallet-sdk/src/relay/scw/type/MessageEnvelope.ts:34-36 | The guard's converse fails: a message with only a `requestId` passes it but is no envelope. |
| ScwConnector.CreateRequestMessage | packages/wallet-sdk/src/connector/scw/SCWConnector.ts:108-120 | The message has type `scw`, the library version, the exported own public key as sender, the given id and timestamp, and the content it was given. |
| ScwConnector.DecryptResponseMessage | packages/wallet-sdk/src/connector/scw/SCWConnector.ts:122-137 | A failure content is thrown as it is. Without a shared secret the session is invalid. Decryption succeeds exactly when the content is encrypted, a secret exists and the cipher accepts the data; the decrypted response is then returned. Data the cipher rejects gives the decryption failure. |
| ScwConnector.Unwrap | packages/wallet-sdk/src/connector/scw/SCWConnector.ts:98-105 | A result carrying `error` is thrown with that error. Otherwise `value` is returned unchanged. |
| ScwConnector.DoHandshake | packages/wallet-sdk/src/connector/scw/SCWConnector.ts:40-73 | It connects, then sends the stamped `eth_requestAccounts` message. A failure answer is thrown with the key storage untouched and nothing after the send. A sender key that does not import is thrown with the storage untouched. Otherwise the imported key is stored as the peer key, and the outcome is "Invalid session" without a shared secret, the decryption failure when the answer does not decrypt, and the decrypted result's error or value otherwise. The own key never changes. |
| ScwConnector.DoRequest | packages/wallet-sdk/src/connector/scw/SCWConnector.ts:75-106 | The key storage is never changed and the first effect is the connect. Without a shared secret the outcome is "Invalid session" and nothing follows the connect, and only then. With a secret, a failure answer is thrown as it is after the send; an encrypted answer that does not decrypt gives the decryption failure; otherwise the decrypted result's error is thrown or its value returned. |
| ScwConnector.SentMessagesAreStamped | packages/wallet-sdk/src/connector/scw/SCWConnector.ts:108-120 | Every message either operation sends is stamped with type `scw`, the version, the sender key, the id and the timestamp. |
| ScwConnector.FailureThrownBeforeKeyStorage | packages/wallet-sdk/src/connector/scw/SCWConnector.ts:122-134 | For a failure content, the outcome does not depend on the key storage or the cipher. |
| ScwConnector.HandshakeFailureStoresNothing | packages/wallet-sdk/src/connector/scw/SCWConnector.ts:56-63 | A handshake answered with a failure neither stores a peer key nor decrypts. |
| ScwConnector.HandshakeStoresSenderKeyFirst | packages/wallet-sdk/src/connector/scw/SCWConnector.ts:61-65 | On an encrypted answer whose sender imports, the imported key is stored right after the send. Decryption follows, with the secret of the updated storage. |
| ScwConnector.HandshakeBadSenderStoresNothing | packages/wallet-sdk/src/connector/scw/SCWConnector.ts:62-63 | A sender key that fails to import aborts the handshake before anything is stored. |
| ScwConnector.RequestEncryptsActionForActiveChain | packages/wallet-sdk/src/connector/scw/SCWConnector.ts:88-95 | With a shared secret, exactly one encryption happens, of `{action, chainId: 1}`, and the message sent carries that ciphertext. |
| ScwConnector.DecryptedResultIsReturned | packages/wallet-sdk/src/connector/scw/SCWConnector.ts:98-105 | Once the answer decrypts, both `handshake` and `request` throw the result's error or return its value. |
| ScwConnector.RequestAfterHandshake | packages/wallet-sdk/src/connector/scw/SCWConnector.ts:82-86 | After a handshake that returned a value, a request on the new key storage is never refused as an invalid session. |
| HexUtil.Strip0x | packages/wallet-sdk/src/core/util.test.ts:44-47 | A leading `0x`/`0X` is removed and the rest is kept. Without a prefix the string is unchanged. |
| HexUtil.Has0xPrefix | packages/wallet-sdk/src/core/util.test.ts:37-42 | A string has the prefix exactly when it starts with `0` followed by `x` or `X`. |
| HexUtil.Prepend0x | packages/wallet-sdk/src/core/util.test.ts:49-52 | The result is a lower-case `0x` followed by the unprefixed string. |
| HexUtil.Prepend0xIdempotent | packages/wallet-sdk/src/core/util.test.ts:49-52 | Prepending twice equals prepending once. A string already starting with `0x` is returned unchanged. |
| HexUtil.PrefixExamples | packages/wallet-sdk/src/core/util.test.ts:37-52 | The prefix, strip and prepend assertions of the test suite. |
| HexUtil.IsHexStringExamples | packages/wallet-sdk/src/core/util.test.ts:54-58 | A number and `apple-sauce` are not hex strings; `8173290` is. |
| HexUtil.IsHexString | packages/wallet-sdk/src/core/util.test.ts:54-58 | A value is a hex string exactly when it is a string whose body after an optional prefix is made of hex digits of either case. |
| HexUtil.EnsureHexString | packages/wallet-sdk/src/core/util.test.ts:60-65 | It succeeds exactly on hex strings; otherwise it fails with the offending input. |
| HexUtil.EnsureHexStringShape | packages/wallet-sdk/src/core/util.test.ts:60-71 | Both helpers return the requested prefix followed by the input's digits in lower case. The even-length helper adds one leading `0` exactly when the digit count is odd, so its body always has even length. |
| HexUtil.EnsureHexStringIdempotent | packages/wallet-sdk/src/core/util.test.ts:60-65 | Applying `ensureHexString` to its own result, with the same prefix choice, returns that result. |
| HexUtil.EnsureEvenLengthHexString | packages/wallet-sdk/src/core/util.test.ts:67-71 | It succeeds exactly on hex strings; otherwise it fails with the offending input. |
| HexUtil.EnsureEvenLengthHexStringIdempotent | packages/wallet-sdk/src/core/util.test.ts:67-71 | Applying `ensureEvenLengthHexString` to its own result, with the same prefix choice, returns that result. |
| HexUtil.EnsureHexStringOfBody | packages/wallet-sdk/src/core/util.test.ts:67-68 | Two hex strings with the same body after the prefix give the same results. |
| HexUtil.EnsureLowerHex | packages/wallet-sdk/src/core/util.test.ts:63-70 | An unprefixed lower-case numeral comes back as given, or padded to even length, behind the requested prefix. |
| HexUtil.EnsureHexStringRejects | packages/wallet-sdk/src/core/util.test.ts:61-62 | The number 123 and the string `az123456` are each rejected with the not-a-hex-string error that carries them. |
| HexUtil.NotHexStringMessage | packages/wallet-sdk/src/core/util.test.ts:61 | Rejecting 123 throws the message `"123" is not a hexadecimal string`. |
| HexUtil.ErrorMessage | packages/wallet-sdk/src/core/util.test.ts:61-79 | A rejected address gives `Invalid Ethereum address`. A rejected string or number gives its `String()` form in double quotes, followed by ` is not a hexadecimal string`. |
| HexUtil.JsToString | packages/wallet-sdk/src/core/util.test.ts:61 | A string is shown as itself; a number is shown in decimal, with a leading `-` when negative. |
| HexUtil.EnsureHexStringExamples | packages/wallet-sdk/src/core/util.test.ts:63-64 | `123456` comes back as `123456`, or as `0x123456` when the prefix is asked for. |
| HexUtil.EnsureEvenLengthHexStringPrefixed | packages/wallet-sdk/src/core/util.test.ts:68 | `0x1234` becomes `1234`. |
| HexUtil.EnsureEvenLengthHexStringPadded | packages/wallet-sdk/src/core/util.test.ts:69-70 | `123456789` becomes `0123456789`, or `0x0123456789` with the prefix. |
| HexUtil.EnsureAddressString | packages/wallet-sdk/src/core/util.test.ts:73-86 | It succeeds exactly on strings whose unprefixed body is 40 hex digits, and fails otherwise. The result is `0x` followed by those 40 digits in lower case. |
| HexUtil.EnsureAddressStringIdempotent | packages/wallet-sdk/src/core/util.test.ts:81-85 | A normalised address is accepted again and returned unchanged. |
| HexUtil.AddressExamples | packages/wallet-sdk/src/core/util.test.ts:73-79 | A number, a 17-digit string and a 41-digit string are each rejected with the invalid-address error. Its message is `Invalid Ethereum address`. |
| HexUtil.AddressNormalised | packages/wallet-sdk/src/core/util.test.ts:81 | The test address becomes `0x` and its lower-case digits. |
| HexUtil.AddressNormalisedPrefixed | packages/wallet-sdk/src/core/util.test.ts:83-85 | The `0X`-prefixed test address becomes the same lower-case `0x` address. |
| HexUtil.ToBase16 | packages/wallet-sdk/src/core/util.test.ts:32-35 | The digits are lower-case hex with no leading zero. |
| HexUtil.ParseToBase16 | packages/wallet-sdk/src/core/util.test.ts:32-35 | The base-16 digits of a number have that number as their value. |
| HexUtil.ToBase16OfParse | packages/wallet-sdk/src/core/util.test.ts:32-35 | A canonical numeral is the base-16 form of its value. |
| HexUtil.HexStringFromIntNumber | packages/wallet-sdk/src/core/util.test.ts:32-35 | The result is `0x` followed by a canonical lower-case numeral. |
| HexUtil.IntNumberFromHexString | packages/wallet-sdk/src/core/util.test.ts:28-30 | A number is returned exactly for hex strings. |
| HexUtil.IntNumberFromHexStringValue | packages/wallet-sdk/src/core/util.test.ts:28-30 | The number is the value of the digits after the prefix, whatever their case and padding. |
| HexUtil.IntNumberRoundTrip | packages/wallet-sdk/src/core/util.test.ts:28-35 | Reading back a formatted number gives the number. |
| HexUtil.HexStringRoundTrip | packages/wallet-sdk/src/core/util.test.ts:28-35 | Formatting a read-back `0x`-prefixed canonical numeral gives the numeral. |
| HexUtil.ParseTestNumbers | packages/wallet-sdk/src/core/util.test.ts:33-34 | `4d2` denotes 1234 and `1a280f323a` denotes 112341234234. |
| HexUtil.HexStringFromIntNumberSmall | packages/wallet-sdk/src/core/util.test.ts:33 | 1234 formats as `0x4d2`. |
| HexUtil.HexStringFromIntNumberLarge | packages/wallet-sdk/src/core/util.test.ts:34 | 112341234234 formats as `0x1a280f323a`. |
| HexUtil.ParseMaxSafeInteger | packages/wallet-sdk/src/core/util.test.ts:29 | `1fffffffffffff` denotes 9007199254740991. |
| HexUtil.IntNumberFromHexStringExample | packages/wallet-sdk/src/core/util.test.ts:28-30 | `0x1fffffffffffff` reads as 9007199254740991. |
| HexUtil.Range | packages/wallet-sdk/src/core/util.test.ts:141-143 | The result is `start, start + 1, …, stop - 1`, and empty when `stop <= start`. |
| QrUrl.CreateQrUrl | packages/wallet-sdk/src/core/util.test.ts:168-193 | The link is the server URL followed by `/#/link?` and the query. |
| QrUrl.QrUrlReadsBack | packages/wallet-sdk/src/core/util.test.ts:168-193 | For any fields, the link's query reads back, in order, to the session id under `parent-id` or `id`, the secret, the server, the version and the chain id. The key is `parent-id` exactly for a parent connection. |
| QrUrl.QueryRoundTrip | packages/wallet-sdk/src/core/util.test.ts:179 | Any non-empty list of encoded pairs joined by `&` reads back to the bytes of its keys and values, in order. |
| QrUrl.DecodeEncode | packages/wallet-sdk/src/core/util.test.ts:179 | Percent-decoding an encoded string gives its UTF-8 bytes. |
| QrUrl.PercentEncode | packages/wallet-sdk/src/core/util.test.ts:179 | The encoding is never shorter than its input, and is exactly as long as it only when every character is unreserved. Each other character becomes `%XX` escapes of its UTF-8 bytes. |
| QrUrl.EncodedIsSafe | packages/wallet-sdk/src/core/util.test.ts:179 | An encoded string holds only unreserved characters and `%`. |
| QrUrl.NoDelimiters | packages/wallet-sdk/src/core/util.test.ts:179 | An encoded key or value holds neither `&` nor `=`. |
| QrUrl.EncodeUnreserved | packages/wallet-sdk/src/core/util.test.ts:179 | A string of unreserved characters, like the hex id and secret, is its own encoding. |
| QrUrl.EncodeTestServer | packages/wallet-sdk/src/core/util.test.ts:179 | `https://www.walletlink.org` encodes as `https%3A%2F%2Fwww.walletlink.org`. |
| QrUrl.TestQuery | packages/wallet-sdk/src/core/util.test.ts:169-191 | The test links' query is `id` or `parent-id`, then `secret`, `server`, `v=1` and `chainId=1`, with only the server escaped. |
| QrUrl.CreateQrUrlExamples | packages/wallet-sdk/src/core/util.test.ts:168-193 | The two links of the test suite, for a plain and for a parent connection. |

## Left out

- SHA-256, ECDH key import/export and AES encryption/decryption are not
  modelled. The hash is a parameter `string -> string`. The connector's
  collaborators are the functions of a `Crypto` record.
- The hash input's ASCII encoding is not modelled: the hash takes the string.
- `crypto.randomBytes`, `crypto.randomUUID` and `new Date()` are not modelled.
  The random id and secret, the message id and the timestamp are parameters.
  `Session.New` requires the random values to have the shape `randomBytes`
  gives: 32 or 64 lower-case hex digits.
- `ScopedLocalStorage` is not part of this model. The store maps the keys as
  they are passed to it, such as `session:id`; its scope prefix is not
  modelled. `getItem`/`setItem`/`removeItem` are map lookup, update and
  removal.
- The rxjs/`window` storage-event plumbing is not modelled: only its
  filter/map is kept, over a finite prefix of the events.
- `PopUpCommunicator` is not part of this model. The popup's answer is an
  input, and `connect`/`request` appear only as effects in the trace. Popup
  lifecycle, readiness waits, timeouts and a popup that never answers are not
  modelled.
- `KeyStorage` is not part of this model. It is the pair of public keys it
  holds. `getSharedSecret` is the `sharedSecret` function of that pair;
  `getOwnPublicKey` is a field read, and `setPeerPublicKey` a field update.
- Async scheduling is not modelled: each operation runs its awaited steps
  in order.
- `LIB_VERSION` is the `libVersion` of the connector configuration.
- `SupportedEthereumMethods.EthRequestAccounts` is not part of this model. It
  is taken to be `"eth_requestAccounts"`.
- The body of `util.ts` is not part of this model. The modelled helpers are
  defined to agree with the assertions of `util.test.ts` about them, thrown
  messages included. Where the tests leave a choice, the model picks a
  natural reading, noted on the lines below.
- HexUtil.EnsureHexStringRejects: a thrown error is the `NotHexString`
  constructor carrying the input, and `HexUtil.ErrorMessage` gives its text.
  `toThrowError(text)` only asks that the message contain the text; the model
  makes it exactly that text. Values other than strings and numbers get no
  modelled message.
- HexUtil.AddressExamples: a thrown error is the `InvalidAddress` constructor
  carrying the input. Its text, from `HexUtil.ErrorMessage`, is exactly
  `Invalid Ethereum address`, where the tests only ask that the message
  contain it.
- HexUtil.EnsureHexString: the case of the returned digits is not fixed by the
  tests. The model lower-cases them, as `ensureAddressString` does.
- HexUtil.IntNumberFromHexString: integers are unbounded, so the loss of
  precision above 2^53 - 1 for JavaScript numbers is not modelled.
- HexUtil.HexStringFromIntNumber: takes a natural number. Negative and
  non-integer numbers are not modelled.
- HexUtil.Range: takes integer bounds. JavaScript numbers that are not
  integers are not modelled.
- QrUrl.CreateQrUrl: the tests fix only the escapes of `:` and `/`. The model
  escapes every character outside the unreserved set of section 2.3 of
  RFC 3986, as the UTF-8 bytes of the character. The SDK's own encoder may
  treat `!`, `'`, `(`, `)`, `*` and the space differently. The chain id is a
  natural number written in decimal: negative and fractional JavaScript
  numbers are not modelled.
- ScwConnector.DoRequest: `encrypt` and `exportPublicKey` of the `Crypto`
  record are total, so a request whose encryption (`encryptContent`) or key
  export (`exportKeyToHexString`) rejects is not modelled.
- ScwConnector.DoHandshake: `exportPublicKey` is total, so a handshake whose
  key export rejects while the message is being built is not modelled.
- The other helpers that `util.test.ts` exercises are not modelled:
  `ensureBuffer`, `ensureBN`, `ensureRegExpString` and
  `ensureParsedJSONObject` (Buffer/BN/RegExp/JSON libraries), `getFavicon`
  and `isMobileWeb` (DOM and user agent), and `ensureIntNumber`, whose choice
  between decimal and hex the tests leave open.

=== FILE: connector.dfy ===
/**
 * The smart-contract-wallet connector
 * (packages/wallet-sdk/src/connector/scw/SCWConnector.ts).
 *
 * `handshake` and `request` are sequences of guarded steps. The popup
 * transport, the key storage and the cipher are outside the model: the
 * popup's answer is an input, the key storage is the pair of public keys it
 * holds, and key export/import, the shared-secret lookup and content
 * encryption/decryption are functions supplied in a `Crypto` record. Each
 * operation returns its outcome, the new key storage and the trace of the
 * effects it performed, in order.
 */
module ScwConnector {
  import opened Optional
  import opened JsonValues

  /** `activeChainId` is fixed at 1. */
  const ActiveChainId := 1

  /** The `type` of every request message. */
  const MessageType := "scw"

  datatype CryptoKey = CryptoKey(material: seq<int>)
  datatype EncryptedData = EncryptedData(bytes: seq<int>)

  /** The key storage: the own public key and, once a handshake got that far, the peer's. */
  datatype KeyStorage = KeyStorage(ownPublicKey: CryptoKey, peerPublicKey: Option<CryptoKey>)

  /** What `encryptContent` encrypts for a request. */
  datatype EncryptedPayload = EncryptedPayload(action: Json, chainId: int)

  /** The `result` of a decrypted response: a value or an error. */
  datatype ResponseResult = Value(value: Json) | Error(error: Json)

  /** A decrypted `SCWResponse`. */
  datatype ScwResponse = ScwResponse(result: ResponseResult)

  /** The uninterpreted collaborators; `None` from import or decrypt is a thrown error. */
  datatype Crypto = Crypto(
    exportPublicKey: CryptoKey -> string,
    importPublicKey: string -> Option<CryptoKey>,
    sharedSecret: KeyStorage -> Option<CryptoKey>,
    encrypt: (EncryptedPayload, CryptoKey) -> EncryptedData,
    decrypt: (EncryptedData, CryptoKey) -> Option<ScwResponse>)

  /** The connector's configuration. */
  datatype Config = Config(appName: string, appLogoUrl: Option<string>, libVersion: string)

  /** The two contents of a request message. */
  datatype RequestContent =
    | Handshake(rpcMethod: string, dappName: string, dappLogoUrl: Option<string>)
    | Encrypted(data: EncryptedData)

  datatype RequestMessage = RequestMessage(
    messageType: string, id: string, sender: string, content: RequestContent,
    version: string, timestamp: int)

  /** The two contents of a response message. */
  datatype ResponseContent = EncryptedResponse(data: EncryptedData) | FailureContent(failure: Json)

  datatype ResponseMessage = ResponseMessage(sender: string, content: ResponseContent)

  /** The values `crypto.randomUUID()` and `new Date()` give the message being built. */
  datatype Stamp = Stamp(id: string, timestamp: int)

  /** `SupportedEthereumMethods.EthRequestAccounts`. */
  const EthRequestAccounts := "eth_requestAccounts"

  /** How an operation ends: a value, or what it throws. */
  datatype Outcome =
    | Ok(value: Json)
    | ProtocolFailure(failure: Json)
    | InvalidSession
    | ResultError(error: Json)
    | KeyImportFailed
    | DecryptionFailed

  /** The observable steps of an operation. */
  datatype Effect =
    | PopupConnect
    | Encrypt(payload: EncryptedPayload, secret: CryptoKey)
    | PopupRequest(message: RequestMessage)
    | StorePeerKey(key: CryptoKey)
    | Decrypt(data: EncryptedData, secret: CryptoKey)

  datatype Step = Step(outcome: Outcome, keys: KeyStorage, trace: seq<Effect>)

  /** `createRequestMessage`: stamps a request content with the connector's identity. */
  function CreateRequestMessage(cfg: Config, crypto: Crypto, keys: KeyStorage, stamp: Stamp,
                                content: RequestContent): (m: RequestMessage)
    ensures m.messageType == MessageType && m.version == cfg.libVersion
    ensures m.sender == crypto.exportPublicKey(keys.ownPublicKey)
    ensures m.id == stamp.id && m.timestamp == stamp.timestamp && m.content == content
  {
    RequestMessage(MessageType, stamp.id, crypto.exportPublicKey(keys.ownPublicKey), content,
                   cfg.libVersion, stamp.timestamp)
  }

  /** What every message the connector sends looks like. */
  predicate WellStamped(cfg: Config, crypto: Crypto, keys: KeyStorage, stamp: Stamp, m: RequestMessage) {
    && m.messageType == MessageType
    && m.version == cfg.libVersion
    && m.sender == crypto.exportPublicKey(keys.ownPublicKey)
    && m.id == stamp.id
    && m.timestamp == stamp.timestamp
  }

  /**
   * `decryptResponseMessage`: a failure content is thrown before the key
   * storage is consulted; without a shared secret the session is invalid.
   */
  function DecryptResponseMessage(crypto: Crypto, keys: KeyStorage, response: ResponseMessage)
    : (r: Result<(ScwResponse, Effect), Outcome>)
    ensures response.content.FailureContent? ==> r == Failure(ProtocolFailure(response.content.failure))
    ensures response.content.EncryptedResponse? && crypto.sharedSecret(keys).None? ==>
      r == Failure(InvalidSession)
    ensures r.Success? <==> (response.content.EncryptedResponse? && crypto.sharedSecret(keys).Some?
      && crypto.decrypt(response.content.data, crypto.sharedSecret(keys).value).Some?)
    ensures r.Success? ==> (r.value.1 == Decrypt(response.content.data, crypto.sharedSecret(keys).value)
      && Some(r.value.0) == crypto.decrypt(response.content.data, crypto.sharedSecret(keys).value))
    ensures (&& response.content.EncryptedResponse? && crypto.sharedSecret(keys).Some?
             && crypto.decrypt(response.content.data, crypto.sharedSecret(keys).value).None?) ==>
      r == Failure(DecryptionFailed)
    ensures r.Failure? ==> !r.error.Ok? && !r.error.ResultError? && !r.error.KeyImportFailed?
  {
    match response.content
    case FailureContent(failure) => Failure(ProtocolFailure(failure))
    case EncryptedResponse(data) =>
      match crypto.sharedSecret(keys)
      case None => Failure(InvalidSession)
      case Some(secret) =>
        match crypto.decrypt(data, secret)
        case None => Failure(DecryptionFailed)
        case Some(decrypted) => Success((decrypted, Decrypt(data, secret)))
  }

  /** A decrypted result's error is thrown; its value is returned unchanged. */
  function Unwrap(decrypted: ScwResponse): (o: Outcome)
    ensures o.Ok? || o.ResultError?
    ensures decrypted.result.Value? <==> o.Ok?
    ensures decrypted.result.Value? ==> o.value == decrypted.result.value
    ensures decrypted.result.Error? ==> o.error == decrypted.result.error
  {
    match decrypted.result
    case Value(v) => Ok(v)
    case Error(e) => ResultError(e)
  }

  /** The handshake content: `eth_requestAccounts` with the dapp's name and logo. */
  function HandshakeContent(cfg: Config): RequestContent {
    Handshake(EthRequestAccounts, cfg.appName, cfg.appLogoUrl)
  }

  /**
   * `handshake`: connect, send the handshake, and on a non-failure answer
   * store the peer key taken from `sender` before decrypting the answer.
   */
  function DoHandshake(cfg: Config, crypto: Crypto, keys: KeyStorage, stamp: Stamp,
                       response: ResponseMessage): (r: Step)
    ensures |r.trace| >= 2 && r.trace[0] == PopupConnect
    ensures r.trace[1] == PopupRequest(CreateRequestMessage(cfg, crypto, keys, stamp, HandshakeContent(cfg)))
    ensures response.content.FailureContent? ==>
      r == Step(ProtocolFailure(response.content.failure), keys, r.trace[..2])
    ensures r.keys.ownPublicKey == keys.ownPublicKey
    ensures r.keys != keys ==> r.keys.peerPublicKey == crypto.importPublicKey(response.sender)
    ensures response.content.EncryptedResponse? && crypto.importPublicKey(response.sender).None? ==>
      r.outcome == KeyImportFailed && r.keys == keys
    ensures response.content.EncryptedResponse? && crypto.importPublicKey(response.sender).Some? ==>
      var keys' := keys.(peerPublicKey := crypto.importPublicKey(response.sender));
      && r.keys == keys'
      && (crypto.sharedSecret(keys').None? ==> r.outcome == InvalidSession)
      && (crypto.sharedSecret(keys').Some? ==>
            var d := crypto.decrypt(response.content.data, crypto.sharedSecret(keys').value);
            r.outcome == if d.None? then DecryptionFailed else Unwrap(d.value))
  {
    var message := CreateRequestMessage(cfg, crypto, keys, stamp, HandshakeContent(cfg));
    var sent := [PopupConnect, PopupRequest(message)];
    if response.content.FailureContent? then
      Step(ProtocolFailure(response.content.failure), keys, sent)
    else
      match crypto.importPublicKey(response.sender)
      case None => Step(KeyImportFailed, keys, sent)
      case Some(peer) =>
        var keys' := keys.(peerPublicKey := Some(peer));
        var stored := sent + [StorePeerKey(peer)];
        match DecryptResponseMessage(crypto, keys', response)
        case Failure(thrown) => Step(thrown, keys', stored)
        case Success((decrypted, effect)) => Step(Unwrap(decrypted), keys', stored + [effect])
  }

  /**
   * `request`: connect, refuse without a shared secret, otherwise encrypt the
   * action for the active chain, send it, and decrypt the answer.
   */
  function DoRequest(cfg: Config, crypto: Crypto, keys: KeyStorage, stamp: Stamp, action: Json,
                     response: ResponseMessage): (r: Step)
    ensures r.keys == keys
    ensures |r.trace| >= 1 && r.trace[0] == PopupConnect
    ensures crypto.sharedSecret(keys).None? <==> r.outcome == InvalidSession && r.trace == [PopupConnect]
    ensures crypto.sharedSecret(keys).Some? && response.content.FailureContent? ==>
      r.outcome == ProtocolFailure(response.content.failure) && |r.trace| == 3
    ensures crypto.sharedSecret(keys).Some? && response.content.EncryptedResponse? ==>
      var d := crypto.decrypt(response.content.data, crypto.sharedSecret(keys).value);
      r.outcome == if d.None? then DecryptionFailed else Unwrap(d.value)
  {
    match crypto.sharedSecret(keys)
    case None => Step(InvalidSession, keys, [PopupConnect])
    case Some(secret) =>
      var payload := EncryptedPayload(action, ActiveChainId);
      var encrypted := crypto.encrypt(payload, secret);
      var message := CreateRequestMessage(cfg, crypto, keys, stamp, Encrypted(encrypted));
      var sent := [PopupConnect, Encrypt(payload, secret), PopupRequest(message)];
      match DecryptResponseMessage(crypto, keys, response)
      case Failure(thrown) => Step(thrown, keys, sent)
      case Success((decrypted, effect)) => Step(Unwrap(decrypted), keys, sent + [effect])
  }

  /** Every message the connector sends is stamped with its identity. */
  lemma SentMessagesAreStamped(cfg: Config, crypto: Crypto, keys: KeyStorage, stamp: Stamp,
                               action: Json, response: ResponseMessage, m: RequestMessage)
    requires PopupRequest(m) in DoHandshake(cfg, crypto, keys, stamp, response).trace
          || PopupRequest(m) in DoRequest(cfg, crypto, keys, stamp, action, response).trace
    ensures WellStamped(cfg, crypto, keys, stamp, m)
  {
  }

  /** A failure content is thrown whatever the key storage and the cipher would say. */
  lemma FailureThrownBeforeKeyStorage(crypto1: Crypto, keys1: KeyStorage, crypto2: Crypto,
                                      keys2: KeyStorage, response: ResponseMessage)
    requires response.content.FailureContent?
    ensures DecryptResponseMessage(crypto1, keys1, response)
         == DecryptResponseMessage(crypto2, keys2, response)
  {
  }

  /** A failed handshake stores no peer key and decrypts nothing. */
  lemma HandshakeFailureStoresNothing(cfg: Config, crypto: Crypto, keys: KeyStorage, stamp: Stamp,
                                      response: ResponseMessage, e: Effect)
    requires response.content.FailureContent?
    requires e in DoHandshake(cfg, crypto, keys, stamp, response).trace
    ensures !e.StorePeerKey? && !e.Decrypt?
  {
  }

  /**
   * On a non-failure answer whose sender imports, the imported key is stored
   * first, and the answer is decrypted with the secret of the updated storage.
   */
  lemma HandshakeStoresSenderKeyFirst(cfg: Config, crypto: Crypto, keys: KeyStorage, stamp: Stamp,
                                      response: ResponseMessage)
    requires response.content.EncryptedResponse?
    requires crypto.importPublicKey(response.sender).Some?
    ensures var r := DoHandshake(cfg, crypto, keys, stamp, response);
      var peer := crypto.importPublicKey(response.sender).value;
      && r.keys == keys.(peerPublicKey := Some(peer))
      && |r.trace| >= 3 && r.trace[2] == StorePeerKey(peer)
      && (crypto.sharedSecret(r.keys).None? ==> r.outcome == InvalidSession)
      && (|r.trace| > 3 ==> r.trace[3] == Decrypt(response.content.data, crypto.sharedSecret(r.keys).value))
  {
  }

  /** A sender that does not import aborts the handshake before anything is stored. */
  lemma HandshakeBadSenderStoresNothing(cfg: Config, crypto: Crypto, keys: KeyStorage, stamp: Stamp,
                                        response: ResponseMessage)
    requires response.content.EncryptedResponse?
    requires crypto.importPublicKey(response.sender).None?
    ensures var r := DoHandshake(cfg, crypto, keys, stamp, response);
      r.outcome == KeyImportFailed && r.keys == keys && |r.trace| == 2
  {
  }

  /** A request with a shared secret encrypts exactly the action on chain 1, and sends that. */
  lemma RequestEncryptsActionForActiveChain(cfg: Config, crypto: Crypto, keys: KeyStorage, stamp: Stamp,
                                            action: Json, response: ResponseMessage)
    requires crypto.sharedSecret(keys).Some?
    ensures var r := DoRequest(cfg, crypto, keys, stamp, action, response);
      var secret := crypto.sharedSecret(keys).value;
      var payload := EncryptedPayload(action, 1);
      && |r.trace| >= 3
      && r.trace[1] == Encrypt(payload, secret)
      && r.trace[2].PopupRequest?
      && r.trace[2].message.content == Encrypted(crypto.encrypt(payload, secret))
      && (forall i :: 0 <= i < |r.trace| && i != 1 ==> !r.trace[i].Encrypt?)
  {
  }

  /**
   * Once the answer decrypts, both operations throw the result's error or
   * return its value unchanged.
   */
  lemma DecryptedResultIsReturned(cfg: Config, crypto: Crypto, keys: KeyStorage, stamp: Stamp,
                                  action: Json, response: ResponseMessage)
    requires response.content.EncryptedResponse?
    ensures var r := DoRequest(cfg, crypto, keys, stamp, action, response);
      var d := DecryptResponseMessage(crypto, keys, response);
      d.Success? ==> r.outcome == Unwrap(d.value.0)
    ensures var h := DoHandshake(cfg, crypto, keys, stamp, response);
      var d := DecryptResponseMessage(crypto, h.keys, response);
      crypto.importPublicKey(response.sender).Some? && d.Success? ==> h.outcome == Unwrap(d.value.0)
  {
  }

  /**
   * After a handshake that returned a value, a request on the new key
   * storage is never refused as an invalid session.
   */
  lemma RequestAfterHandshake(cfg: Config, crypto: Crypto, keys: KeyStorage, stamp1: Stamp,
                              handshakeResponse: ResponseMessage, stamp2: Stamp, action: Json,
                              response: ResponseMessage)
    requires DoHandshake(cfg, crypto, keys, stamp1, handshakeResponse).outcome.Ok?
    ensures var h := DoHandshake(cfg, crypto, keys, stamp1, handshakeResponse);
      DoRequest(cfg, crypto, h.keys, stamp2, action, response).outcome != InvalidSession
  {
  }
}

=== FILE: envelope.dfy ===
/**
 * The envelopes exchanged with the wallet popup
 * (packages/wallet-sdk/src/relay/scw/type/MessageEnvelope.ts).
 *
 * A cross-domain message is a JavaScript object; it is modelled as the map
 * from its field names to their JSON values, so that the structural test
 * `'requestId' in message` can be stated as it is written.
 */
module MessageEnvelope {
  import opened Optional
  import opened JsonValues

  /** The transports the popup may select. */
  datatype Relay = Scw | WalletLink | Extension

  function RelayName(r: Relay): string {
    match r
    case Scw => "scw"
    case WalletLink => "walletlink"
    case Extension => "extension"
  }

  /** Reads the `relay` field: exactly the three names are accepted. */
  function ParseRelay(s: string): (r: Option<Relay>)
    ensures r.Some? <==> s in {"scw", "walletlink", "extension"}
    ensures r.Some? ==> RelayName(r.value) == s
  {
    if s == "scw" then Some(Scw)
    else if s == "walletlink" then Some(WalletLink)
    else if s == "extension" then Some(Extension)
    else None
  }

  lemma RelayNameRoundTrip(r: Relay)
    ensures ParseRelay(RelayName(r)) == Some(r)
  {
  }

  datatype RequestEnvelope =
    | SelectRelayType(id: string)
    | Web3Request(id: string, content: Json)

  /** Both variants carry their own `id` and the `requestId` they answer. */
  datatype ResponseEnvelope =
    | RelaySelected(id: string, requestId: string, relay: Relay)
    | Web3Response(id: string, requestId: string, response: Json)

  type Message = map<string, Json>

  /** The object literal a request envelope is sent as. */
  function RequestMessage(e: RequestEnvelope): (m: Message)
    ensures "type" in m && "id" in m && m["id"] == Str(e.id)
    ensures m["type"] == Str(if e.SelectRelayType? then "selectRelayType" else "web3Request")
    ensures e.Web3Request? ==> "content" in m && m["content"] == e.content
    ensures m.Keys == if e.SelectRelayType? then {"type", "id"} else {"type", "id", "content"}
    ensures "requestId" !in m
  {
    match e
    case SelectRelayType(id) =>
      map["type" := Str("selectRelayType"), "id" := Str(id)]
    case Web3Request(id, content) =>
      map["type" := Str("web3Request"), "id" := Str(id), "content" := content]
  }

  /** The object literal a response envelope is sent as. */
  function ResponseMessage(e: ResponseEnvelope): (m: Message)
    ensures "type" in m && "id" in m && m["id"] == Str(e.id)
    ensures "requestId" in m && m["requestId"] == Str(e.requestId)
  {
    match e
    case RelaySelected(id, requestId, relay) =>
      map["type" := Str("relaySelected"), "id" := Str(id), "requestId" := Str(requestId),
          "relay" := Str(RelayName(relay))]
    case Web3Response(id, requestId, response) =>
      map["type" := Str("web3Response"), "id" := Str(id), "requestId" := Str(requestId),
          "response" := response]
  }

  /** `POPUP_READY_MESSAGE`. */
  const PopupReadyMessage: Message := map["type" := Str("popupReadyForRequest")]

  /** `isResponseEnvelope`: a structural test for a `requestId` field. */
  predicate IsResponseEnvelope(m: Message) {
    "requestId" in m
  }

  /** Reads a message back as a response envelope, checking every field's shape. */
  function ParseResponseEnvelope(m: Message): (r: Option<ResponseEnvelope>)
    ensures r.Some? ==> ResponseMessage(r.value) == m
  {
    if "type" in m && "id" in m && m["id"].Str? && "requestId" in m && m["requestId"].Str? then
      var id := m["id"].s;
      var requestId := m["requestId"].s;
      if m["type"] == Str("relaySelected") && "relay" in m && m["relay"].Str?
         && ParseRelay(m["relay"].s).Some? && m.Keys == {"type", "id", "requestId", "relay"} then
        Some(RelaySelected(id, requestId, ParseRelay(m["relay"].s).value))
      else if m["type"] == Str("web3Response") && "response" in m
         && m.Keys == {"type", "id", "requestId", "response"} then
        Some(Web3Response(id, requestId, m["response"]))
      else
        None
    else
      None
  }

  /** Both response variants are classified as responses. */
  lemma ResponsesAreClassified(e: ResponseEnvelope)
    ensures IsResponseEnvelope(ResponseMessage(e))
  {
  }

  /** Neither request variant is classified as a response. */
  lemma RequestsAreNotClassified(e: RequestEnvelope)
    ensures !IsResponseEnvelope(RequestMessage(e))
  {
  }

  /** The popup's ready signal is not classified as a response. */
  lemma PopupReadyIsNotResponse()
    ensures !IsResponseEnvelope(PopupReadyMessage)
  {
  }

  /** A response message is read back as the envelope it was built from. */
  lemma ResponseRoundTrip(e: ResponseEnvelope)
    ensures ParseResponseEnvelope(ResponseMessage(e)) == Some(e)
  {
    var m := ResponseMessage(e);
    match e
    case RelaySelected(id, requestId, relay) =>
      assert m.Keys == {"type", "id", "requestId", "relay"};
      RelayNameRoundTrip(relay);
    case Web3Response(id, requestId, response) =>
      assert m.Keys == {"type", "id", "requestId", "response"};
  }

  /** Every well-formed response passes the guard. */
  lemma WellFormedResponsesPassGuard(m: Message)
    requires ParseResponseEnvelope(m).Some?
    ensures IsResponseEnvelope(m)
  {
  }

  /** The guard only looks for the field: a message that is no envelope can pass it. */
  lemma GuardIsStructural()
    ensures var m := map["requestId" := Null];
      IsResponseEnvelope(m) && ParseResponseEnvelope(m) == None
  {
  }
}

=== FILE: hexutil.dfy ===
/**
 * The hex-string, address, integer and range helpers of the wallet SDK's
 * core utilities, as packages/wallet-sdk/src/core/util.test.ts pins them.
 *
 * Inputs typed `unknown` in the SDK are a `JsValue`; a thrown error is the
 * `Failure` side of a `Result`. Integers are unbounded naturals.
 */
module HexUtil {
  import opened Optional

  /** A JavaScript value as far as these helpers distinguish it. */
  datatype JsValue = JsString(s: string) | JsNumber(n: int) | JsOther

  datatype UtilError = NotHexString(input: JsValue) | InvalidAddress(input: JsValue)

  /** `Number.prototype.toString()` of a natural number. */
  function Decimal(n: nat): (s: string)
    ensures |s| > 0 && forall i :: 0 <= i < |s| ==> '0' <= s[i] <= '9'
  {
    if n < 10 then ["0123456789"[n]] else Decimal(n / 10) + ["0123456789"[n % 10]]
  }

  /** `String(v)` for a string or an integer; other values are not rendered. */
  function JsToString(v: JsValue): (r: Option<string>)
    ensures r.Some? <==> !v.JsOther?
    ensures v.JsString? ==> r == Some(v.s)
    ensures v.JsNumber? && v.n >= 0 ==> r == Some(Decimal(v.n))
    ensures v.JsNumber? && v.n < 0 ==> |r.value| >= 2 && r.value[0] == '-' && r.value[1..] == Decimal(-v.n)
  {
    match v
    case JsString(s) => Some(s)
    case JsNumber(n) => Some(if n < 0 then "-" + Decimal(-n) else Decimal(n))
    case JsOther => None
  }

  /** What follows the quoted value in the message of a non-hex input. */
  const NotHexSuffix := "\" is not a hexadecimal string"

  /**
   * The message an error is thrown with: the rejected value in double quotes
   * for a non-hex input, a fixed text for an address.
   */
  function ErrorMessage(e: UtilError): (m: Option<string>)
    ensures e.InvalidAddress? ==> m == Some("Invalid Ethereum address")
    ensures e.NotHexString? ==> (m.Some? <==> !e.input.JsOther?)
    ensures e.NotHexString? && m.Some? ==>
      var shown := JsToString(e.input).value;
      && |m.value| == |shown| + 30 && m.value[0] == '"' && m.value[1..|shown| + 1] == shown
      && m.value[|shown| + 1..] == NotHexSuffix
  {
    match e
    case InvalidAddress(_) => Some("Invalid Ethereum address")
    case NotHexString(v) =>
      match JsToString(v)
      case None => None
      case Some(shown) => Some("\"" + shown + NotHexSuffix)
  }

  predicate IsHexDigit(c: char) {
    '0' <= c <= '9' || 'a' <= c <= 'f' || 'A' <= c <= 'F'
  }

  predicate IsLowerHexDigit(c: char) {
    '0' <= c <= '9' || 'a' <= c <= 'f'
  }

  predicate AllHex(s: string) {
    forall i :: 0 <= i < |s| ==> IsHexDigit(s[i])
  }

  predicate AllLowerHex(s: string) {
    forall i :: 0 <= i < |s| ==> IsLowerHexDigit(s[i])
  }

  /** A hex numeral without a prefix or leading zeros, in lower case. */
  predicate Canonical(s: string) {
    |s| > 0 && AllLowerHex(s) && (s[0] != '0' || |s| == 1)
  }

  /** `has0xPrefix`: the string starts with `0x` or `0X`. */
  predicate Has0xPrefix(s: string) {
    |s| >= 2 && s[0] == '0' && (s[1] == 'x' || s[1] == 'X')
  }

  /** `strip0x`: drops a leading prefix, and nothing else. */
  function Strip0x(s: string): (r: string)
    ensures Has0xPrefix(s) ==> s == s[..2] + r
    ensures !Has0xPrefix(s) ==> r == s
  {
    if Has0xPrefix(s) then s[2..] else s
  }

  /** `prepend0x`: a lower-case `0x` in front of the unprefixed string. */
  function Prepend0x(s: string): (r: string)
    ensures |r| >= 2 && r[..2] == "0x" && r[2..] == Strip0x(s)
  {
    "0x" + Strip0x(s)
  }

  /** Prepending twice is prepending once; a lower-case prefix is kept as it is. */
  lemma Prepend0xIdempotent(s: string)
    ensures Prepend0x(Prepend0x(s)) == Prepend0x(s)
    ensures Has0xPrefix(s) && s[1] == 'x' ==> Prepend0x(s) == s
  {
    assert Strip0x(Prepend0x(s)) == Strip0x(s);
    if Has0xPrefix(s) && s[1] == 'x' {
      assert s[..2] == "0x";
    }
  }

  function LowerChar(c: char): (r: char)
    ensures IsHexDigit(c) ==> IsLowerHexDigit(r)
    ensures IsLowerHexDigit(c) ==> r == c
  {
    if 'A' <= c <= 'Z' then (c as int + 32) as char else c
  }

  /** ASCII lower-casing; a hex digit's case is the only case the helpers change. */
  function Lower(s: string): (r: string)
    ensures |r| == |s|
    ensures forall i :: 0 <= i < |s| ==> r[i] == LowerChar(s[i])
    ensures AllHex(s) ==> AllLowerHex(r)
  {
    seq(|s|, i requires 0 <= i < |s| => LowerChar(s[i]))
  }

  lemma LowerOfLowerHex(s: string)
    requires AllLowerHex(s)
    ensures Lower(s) == s
  {
  }

  /** `isHexString`: a string whose unprefixed body is made of hex digits. */
  predicate IsHexString(v: JsValue) {
    v.JsString? && AllHex(Strip0x(v.s))
  }

  function Prefix(includePrefix: bool): string {
    if includePrefix then "0x" else ""
  }

  /** The lower-case hex body of a hex string, without its prefix. */
  function Normalised(v: JsValue): string
    requires IsHexString(v)
  {
    Lower(Strip0x(v.s))
  }

  /**
   * `ensureHexString`: the hex body in lower case, prefixed with `0x` when
   * asked; anything else is rejected.
   */
  function EnsureHexString(v: JsValue, includePrefix: bool): (r: Result<string, UtilError>)
    ensures r.Success? <==> IsHexString(v)
    ensures r.Failure? ==> r.error == NotHexString(v)
  {
    if IsHexString(v) then Success(Prefix(includePrefix) + Normalised(v))
    else Failure(NotHexString(v))
  }

  /** The padded body: one `0` in front of an odd number of digits. */
  function EvenLength(h: string): (r: string)
    ensures |r| % 2 == 0 && (r == h || r == "0" + h)
  {
    if |h| % 2 == 1 then "0" + h else h
  }

  /**
   * `ensureEvenLengthHexString`: the lower-case hex body, left-padded with one
   * `0` when its length is odd, prefixed with `0x` when asked.
   */
  function EnsureEvenLengthHexString(v: JsValue, includePrefix: bool): (r: Result<string, UtilError>)
    ensures r.Success? <==> IsHexString(v)
    ensures r.Failure? ==> r.error == NotHexString(v)
  {
    match EnsureHexString(v, false)
    case Failure(e) => Failure(e)
    case Success(h) => Success(Prefix(includePrefix) + EvenLength(h))
  }

  /**
   * What the two hex-string helpers return: the asked-for prefix, then the
   * digits of the input in lower case, as many as there are or padded to an
   * even number with one leading zero.
   */
  lemma EnsureHexStringShape(v: JsValue, includePrefix: bool)
    requires IsHexString(v)
    ensures var p, body := Prefix(includePrefix), Strip0x(v.s);
      var r := EnsureHexString(v, includePrefix).value;
      var e := EnsureEvenLengthHexString(v, includePrefix).value;
      && |r| == |p| + |body| && r[..|p|] == p && AllLowerHex(r[|p|..])
      && (forall i :: 0 <= i < |body| ==> r[|p| + i] == LowerChar(body[i]))
      && |e| >= |p| && e[..|p|] == p && |e[|p|..]| % 2 == 0 && AllLowerHex(e[|p|..])
      && (if |body| % 2 == 0 then e[|p|..] == r[|p|..] else e[|p|..] == "0" + r[|p|..])
  {
    var p, h := Prefix(includePrefix), Normalised(v);
    assert EnsureHexString(v, false).value == h by {
      assert Prefix(false) + h == h;
    }
    assert AllLowerHex(h) && |h| == |Strip0x(v.s)|;
    EvenLengthLowerHex(h);
    var r := EnsureHexString(v, includePrefix).value;
    var e := EnsureEvenLengthHexString(v, includePrefix).value;
    assert r == p + h && e == p + EvenLength(h);
    assert r[..|p|] == p && r[|p|..] == h;
    assert e[..|p|] == p && e[|p|..] == EvenLength(h);
  }

  /** A prefix put in front of lower-case digits is the one `strip0x` removes. */
  lemma StripPrefix(h: string, includePrefix: bool)
    requires AllLowerHex(h)
    ensures !Has0xPrefix(h) && Strip0x(Prefix(includePrefix) + h) == h
  {
    var r := Prefix(includePrefix) + h;
    if includePrefix { assert r[..2] == "0x"; } else { assert r == h; }
  }

  lemma EvenLengthLowerHex(h: string)
    requires AllLowerHex(h)
    ensures AllLowerHex(EvenLength(h))
  {
    var eh := EvenLength(h);
    if eh != h { assert forall i :: 1 <= i < |eh| ==> eh[i] == h[i - 1]; }
  }

  /** Normalising a normalised string changes nothing. */
  lemma EnsureHexStringIdempotent(v: JsValue, includePrefix: bool)
    requires IsHexString(v)
    ensures var r := EnsureHexString(v, includePrefix).value;
      EnsureHexString(JsString(r), includePrefix) == Success(r)
  {
    var h := Normalised(v);
    StripPrefix(h, includePrefix);
    EnsureHexStringOfBody(Prefix(includePrefix) + h, h, includePrefix);
    EnsureLowerHex(h, includePrefix);
  }

  lemma EnsureEvenLengthHexStringIdempotent(v: JsValue, includePrefix: bool)
    requires IsHexString(v)
    ensures var e := EnsureEvenLengthHexString(v, includePrefix).value;
      EnsureEvenLengthHexString(JsString(e), includePrefix) == Success(e)
  {
    var h := Normalised(v);
    assert EnsureHexString(v, false).value == h by {
      assert Prefix(false) + h == h;
    }
    var eh := EvenLength(h);
    EvenLengthLowerHex(h);
    StripPrefix(eh, includePrefix);
    EnsureHexStringOfBody(Prefix(includePrefix) + eh, eh, includePrefix);
    EnsureLowerHex(eh, includePrefix);
  }

  /** On a hex string, the helpers see only the body after a prefix. */
  lemma EnsureHexStringOfBody(s: string, t: string, includePrefix: bool)
    requires Strip0x(s) == Strip0x(t) && IsHexString(JsString(t))
    ensures EnsureHexString(JsString(s), includePrefix) == EnsureHexString(JsString(t), includePrefix)
    ensures EnsureEvenLengthHexString(JsString(s), includePrefix) == EnsureEvenLengthHexString(JsString(t), includePrefix)
  {
    assert Normalised(JsString(s)) == Normalised(JsString(t));
  }

  /** An unprefixed lower-case numeral is returned as it is, or padded. */
  lemma EnsureLowerHex(h: string, includePrefix: bool)
    requires AllLowerHex(h) && !Has0xPrefix(h)
    ensures EnsureHexString(JsString(h), includePrefix) == Success(Prefix(includePrefix) + h)
    ensures EnsureEvenLengthHexString(JsString(h), includePrefix) == Success(Prefix(includePrefix) + EvenLength(h))
  {
    LowerOfLowerHex(h);
    assert Strip0x(h) == h;
    assert Normalised(JsString(h)) == h;
    assert EnsureHexString(JsString(h), false) == Success(h) by {
      assert Prefix(false) + h == h;
    }
  }

  /**
   * `ensureAddressString`: exactly forty hex digits, optionally prefixed,
   * become `0x` and the digits in lower case.
   */
  function EnsureAddressString(v: JsValue): (r: Result<string, UtilError>)
    ensures r.Success? <==> v.JsString? && |Strip0x(v.s)| == 40 && AllHex(Strip0x(v.s))
    ensures r.Failure? ==> r.error == InvalidAddress(v)
    ensures r.Success? ==>
      && |r.value| == 42 && r.value[..2] == "0x"
      && AllLowerHex(r.value[2..])
      && forall i :: 0 <= i < 40 ==> r.value[2 + i] == LowerChar(Strip0x(v.s)[i])
  {
    if v.JsString? && |Strip0x(v.s)| == 40 && AllHex(Strip0x(v.s)) then
      Success(Prepend0x(Lower(Strip0x(v.s))))
    else
      Failure(InvalidAddress(v))
  }

  /** A normalised address is accepted again and left as it is. */
  lemma EnsureAddressStringIdempotent(v: JsValue)
    requires EnsureAddressString(v).Success?
    ensures var a := EnsureAddressString(v).value;
      EnsureAddressString(JsString(a)) == Success(a)
  {
    var a := EnsureAddressString(v).value;
    assert a == "0x" + a[2..];
    assert Strip0x(a) == a[2..];
    LowerOfLowerHex(a[2..]);
  }

  /** The value of a hex digit of either case. */
  function DigitValue(c: char): (d: nat)
    requires IsHexDigit(c)
    ensures d < 16
  {
    if '0' <= c <= '9' then c as int - '0' as int
    else if 'a' <= c <= 'f' then c as int - 'a' as int + 10
    else c as int - 'A' as int + 10
  }

  /** The lower-case digit of a value below 16. */
  function Digit(d: nat): (c: char)
    requires d < 16
    ensures IsLowerHexDigit(c) && DigitValue(c) == d
  {
    "0123456789abcdef"[d]
  }

  lemma DigitOfValue(c: char)
    requires IsLowerHexDigit(c)
    ensures Digit(DigitValue(c)) == c
  {
  }

  /** The number a hex numeral denotes, most significant digit first. */
  function ParseHex(s: string): nat
    requires AllHex(s)
  {
    if s == [] then 0 else ParseHex(s[..|s| - 1]) * 16 + DigitValue(s[|s| - 1])
  }

  /** Base-16 digits of `n`, lower case, with no leading zeros. */
  function ToBase16(n: nat): (s: string)
    ensures Canonical(s)
  {
    if n < 16 then [Digit(n)] else ToBase16(n / 16) + [Digit(n % 16)]
  }

  lemma {:induction false} ParseToBase16(n: nat)
    ensures ParseHex(ToBase16(n)) == n
  {
    if n >= 16 {
      var s := ToBase16(n);
      assert s[..|s| - 1] == ToBase16(n / 16);
      ParseToBase16(n / 16);
    }
  }

  /** A canonical numeral has a positive value unless it is `0`. */
  lemma {:induction false} ParsePositive(s: string)
    requires Canonical(s) && s[0] != '0'
    ensures ParseHex(s) >= 1
  {
    if |s| > 1 {
      ParsePositive(s[..|s| - 1]);
    }
  }

  lemma {:induction false} ToBase16OfParse(s: string)
    requires Canonical(s)
    ensures ToBase16(ParseHex(s)) == s
  {
    var last := s[|s| - 1];
    DigitOfValue(last);
    if |s| > 1 {
      var init := s[..|s| - 1];
      ParsePositive(init);
      ToBase16OfParse(init);
      assert ParseHex(s) / 16 == ParseHex(init);
      assert ParseHex(s) % 16 == DigitValue(last);
      assert s == init + [last];
    }
  }

  lemma {:induction false} ParseLeadingZero(s: string)
    requires AllHex(s)
    ensures AllHex("0" + s) && ParseHex("0" + s) == ParseHex(s)
  {
    if s != [] {
      var z := "0" + s;
      assert z[..|z| - 1] == "0" + s[..|s| - 1];
      ParseLeadingZero(s[..|s| - 1]);
    }
  }

  lemma {:induction false} ParseLower(s: string)
    requires AllHex(s)
    ensures ParseHex(Lower(s)) == ParseHex(s)
  {
    if s != [] {
      var l := Lower(s);
      assert l[..|l| - 1] == Lower(s[..|s| - 1]);
      ParseLower(s[..|s| - 1]);
    }
  }

  /** `hexStringFromIntNumber`: `0x` and the base-16 digits. */
  function HexStringFromIntNumber(n: nat): (r: string)
    ensures |r| >= 3 && r[..2] == "0x" && Canonical(r[2..])
  {
    "0x" + ToBase16(n)
  }

  /** `intNumberFromHexString`: the value of the even-length form of a hex string. */
  function IntNumberFromHexString(s: string): (r: Result<nat, UtilError>)
    ensures r.Success? <==> IsHexString(JsString(s))
  {
    match EnsureEvenLengthHexString(JsString(s), false)
    case Failure(e) => Failure(e)
    case Success(h) => Success(ParseHex(h))
  }

  /** Padding to an even length keeps the value. */
  lemma ParseEvenLength(h: string)
    requires AllHex(h)
    ensures AllHex(EvenLength(h)) && ParseHex(EvenLength(h)) == ParseHex(h)
  {
    if |h| % 2 == 1 {
      ParseLeadingZero(h);
    }
  }

  /** The value of a hex string is the value of its digits, whatever their case or padding. */
  lemma IntNumberFromHexStringValue(s: string)
    requires IsHexString(JsString(s))
    ensures IntNumberFromHexString(s) == Success(ParseHex(Strip0x(s)))
  {
    var body := Strip0x(s);
    var h := Normalised(JsString(s));
    assert AllHex(h) && h == Lower(body);
    assert EnsureHexString(JsString(s), false) == Success(h) by {
      assert Prefix(false) + h == h;
    }
    assert EnsureEvenLengthHexString(JsString(s), false) == Success(EvenLength(h)) by {
      assert Prefix(false) + EvenLength(h) == EvenLength(h);
    }
    ParseLower(body);
    ParseEvenLength(h);
  }

  /** Reading back a formatted number gives the number. */
  lemma IntNumberRoundTrip(n: nat)
    ensures IntNumberFromHexString(HexStringFromIntNumber(n)) == Success(n)
  {
    var h := HexStringFromIntNumber(n);
    assert Strip0x(h) == ToBase16(n);
    IntNumberFromHexStringValue(h);
    ParseToBase16(n);
  }

  /** Formatting a read-back canonical numeral gives the numeral. */
  lemma {:induction false} HexStringRoundTrip(c: string)
    requires Canonical(c)
    ensures IntNumberFromHexString("0x" + c).Success?
    ensures HexStringFromIntNumber(IntNumberFromHexString("0x" + c).value) == "0x" + c
  {
    assert Strip0x("0x" + c) == c;
    IntNumberFromHexStringValue("0x" + c);
    ToBase16OfParse(c);
  }

  /** `range(start, stop)`: the integers from `start` up to, not including, `stop`. */
  method Range(start: int, stop: int) returns (r: seq<int>)
    ensures |r| == if stop > start then stop - start else 0
    ensures forall i :: 0 <= i < |r| ==> r[i] == start + i
  {
    var n := if stop > start then stop - start else 0;
    r := [];
    while |r| < n
      invariant |r| <= n
      invariant forall i :: 0 <= i < |r| ==> r[i] == start + i
    {
      r := r + [start + |r|];
    }
  }

  /** The prefix assertions of the test suite. */
  lemma PrefixExamples()
    ensures !Has0xPrefix("91234") && !Has0xPrefix("ox91234")
    ensures Has0xPrefix("0x91234") && Has0xPrefix("0X91234")
    ensures Strip0x("0x91234") == "91234" && Strip0x("70x91234") == "70x91234"
    ensures Prepend0x("0X91234") == "0x91234" && Prepend0x("8181003") == "0x8181003"
  {
  }

  /** The hex-string assertions of the test suite. */
  lemma IsHexStringExamples()
    ensures !IsHexString(JsNumber(8173290)) && IsHexString(JsString("8173290"))
    ensures !IsHexString(JsString("apple-sauce"))
  {
    assert !IsHexDigit("apple-sauce"[1]);
  }

  lemma EnsureHexStringRejects()
    ensures EnsureHexString(JsNumber(123), false) == Failure(NotHexString(JsNumber(123)))
    ensures EnsureHexString(JsString("az123456"), false) == Failure(NotHexString(JsString("az123456")))
  {
    assert !IsHexDigit("az123456"[1]);
  }

  /** The number 123 is rejected with the message the test suite expects. */
  lemma NotHexStringMessage()
    ensures ErrorMessage(NotHexString(JsNumber(123))) == Some("\"123" + NotHexSuffix)
  {
    assert Decimal(123) == "123" by {
      assert Decimal(12) == "12";
    }
    assert "\"" + "123" == "\"123";
  }

  lemma EnsureHexStringExamples()
    ensures EnsureHexString(JsString("123456"), false) == Success("123456")
    ensures EnsureHexString(JsString("123456"), true) == Success("0x123456")
  {
    EnsureLowerHex("123456", false);
    EnsureLowerHex("123456", true);
    assert Prefix(false) + "123456" == "123456";
    assert Prefix(true) + "123456" == "0x123456";
  }

  lemma EnsureEvenLengthHexStringPrefixed()
    ensures EnsureEvenLengthHexString(JsString("0x1234"), false) == Success("1234")
  {
    assert Strip0x("0x1234") == "1234";
    EnsureLowerHex("1234", false);
    EnsureHexStringOfBody("0x1234", "1234", false);
    assert Prefix(false) + EvenLength("1234") == "1234";
  }

  lemma EnsureEvenLengthHexStringPadded()
    ensures EnsureEvenLengthHexString(JsString("123456789"), false) == Success("0123456789")
    ensures EnsureEvenLengthHexString(JsString("123456789"), true) == Success("0x0123456789")
  {
    var h := "123456789";
    EnsureLowerHex(h, false);
    EnsureLowerHex(h, true);
    assert EvenLength(h) == "0" + h;
    assert Prefix(false) + ("0" + h) == "0123456789";
    assert Prefix(true) + ("0" + h) == "0x0123456789";
  }

  /** The address assertions of the test suite. */
  lemma AddressExamples()
    ensures var v := JsNumber(1234);
      EnsureAddressString(v) == Failure(InvalidAddress(v))
    ensures var v := JsString("E556B9bfEFDd5B190");
      EnsureAddressString(v) == Failure(InvalidAddress(v))
    ensures var v := JsString("E556B9bfEFDd5B190c67b521ED0A7d19Ab89a3111");
      EnsureAddressString(v) == Failure(InvalidAddress(v))
    ensures ErrorMessage(InvalidAddress(JsNumber(1234))) == Some("Invalid Ethereum address")
  {
  }

  lemma LowerAppend(a: string, b: string)
    ensures Lower(a + b) == Lower(a) + Lower(b)
  {
  }

  /** The address of the test suite, in pieces of eight digits, as given and in lower case. */
  const TestAddress := "E556B9bf" + "EFDd5B19" + "0c67b521" + "ED0A7d19" + "Ab89a311"
  const TestAddressLower := "e556b9bf" + "efdd5b19" + "0c67b521" + "ed0a7d19" + "ab89a311"

  lemma LowerTestAddress()
    ensures Lower(TestAddress) == TestAddressLower
  {
    var a, b, c, d, e := "E556B9bf", "EFDd5B19", "0c67b521", "ED0A7d19", "Ab89a311";
    assert Lower(a) == "e556b9bf";
    assert Lower(b) == "efdd5b19";
    assert Lower(c) == "0c67b521";
    assert Lower(d) == "ed0a7d19";
    assert Lower(e) == "ab89a311";
    LowerAppend(a, b);
    LowerAppend(a + b, c);
    LowerAppend(a + b + c, d);
    LowerAppend(a + b + c + d, e);
  }

  lemma TestAddressShape()
    ensures |TestAddress| == 40 && AllHex(TestAddress) && !Has0xPrefix(TestAddress)
    ensures !Has0xPrefix(TestAddressLower)
  {
  }

  lemma AddressNormalised()
    ensures EnsureAddressString(JsString(TestAddress)) == Success("0x" + TestAddressLower)
  {
    TestAddressShape();
    LowerTestAddress();
    assert Prepend0x(TestAddressLower) == "0x" + TestAddressLower;
  }

  lemma AddressNormalisedPrefixed()
    ensures EnsureAddressString(JsString("0X" + TestAddress)) == Success("0x" + TestAddressLower)
  {
    var p := "0X" + TestAddress;
    assert Has0xPrefix(p) && p[2..] == TestAddress;
    AddressNormalised();
    assert EnsureAddressString(JsString(p)) == EnsureAddressString(JsString(TestAddress));
  }

  /** One more digit at the end multiplies by sixteen and adds its value. */
  lemma ParseAppend(s: string, c: char, t: string)
    requires AllHex(s) && IsHexDigit(c) && t == s + [c]
    ensures AllHex(t) && ParseHex(t) == ParseHex(s) * 16 + DigitValue(c)
  {
    assert t[..|s|] == s;
  }

  lemma ParseTestNumbers()
    ensures ParseHex("4d2") == 1234
    ensures ParseHex("1a280f323a") == 112341234234
  {
    ParseAppend("", '4', "4");
    ParseAppend("4", 'd', "4d");
    ParseAppend("4d", '2', "4d2");
    ParseTestNumberLarge();
  }

  lemma ParseTestNumberLarge()
    ensures Canonical("1a280f323a") && ParseHex("1a280f323a") == 112341234234
  {
    ParseAppend("", '1', "1");
    ParseAppend("1", 'a', "1a");
    ParseAppend("1a", '2', "1a2");
    ParseAppend("1a2", '8', "1a28");
    ParseAppend("1a28", '0', "1a280");
    ParseAppend("1a280", 'f', "1a280f");
    ParseAppend("1a280f", '3', "1a280f3");
    ParseAppend("1a280f3", '2', "1a280f32");
    ParseAppend("1a280f32", '3', "1a280f323");
    ParseAppend("1a280f323", 'a', "1a280f323a");
  }

  /** 2^53 - 1, the largest integer a JavaScript number holds exactly, is a one and thirteen `f`s. */
  lemma ParseMaxSafeInteger()
    ensures ParseHex("1fffffffffffff") == 9007199254740991
  {
    ParseAppend("", '1', "1");
    ParseAppend("1", 'f', "1f");
    ParseAppend("1f", 'f', "1ff");
    ParseAppend("1ff", 'f', "1fff");
    ParseAppend("1fff", 'f', "1ffff");
    ParseAppend("1ffff", 'f', "1fffff");
    ParseAppend("1fffff", 'f', "1ffffff");
    ParseAppend("1ffffff", 'f', "1fffffff");
    ParseAppend("1fffffff", 'f', "1ffffffff");
    ParseAppend("1ffffffff", 'f', "1fffffffff");
    ParseAppend("1fffffffff", 'f', "1ffffffffff");
    ParseAppend("1ffffffffff", 'f', "1fffffffffff");
    ParseAppend("1fffffffffff", 'f', "1ffffffffffff");
    ParseAppend("1ffffffffffff", 'f', "1fffffffffffff");
  }

  /** A canonical numeral is what `hexStringFromIntNumber` writes for its value. */
  lemma HexStringOfValue(s: string, n: nat)
    requires Canonical(s) && ParseHex(s) == n
    ensures HexStringFromIntNumber(n) == "0x" + s
  {
    ToBase16OfParse(s);
  }

  /** `hexStringFromIntNumber(1234)` is `0x4d2`. */
  lemma HexStringFromIntNumberSmall()
    ensures HexStringFromIntNumber(1234) == "0x4d2"
  {
    ParseTestNumbers();
    HexStringOfValue("4d2", 1234);
  }

  /** `hexStringFromIntNumber(112341234234)` is `0x1a280f323a`. */
  lemma HexStringFromIntNumberLarge()
    ensures HexStringFromIntNumber(112341234234) == "0x1a280f323a"
  {
    ParseTestNumberLarge();
    HexStringOfValue("1a280f323a", 112341234234);
  }

  lemma IntNumberFromHexStringExample()
    ensures IntNumberFromHexString("0x1fffffffffffff") == Success(9007199254740991)
  {
    assert Strip0x("0x1fffffffffffff") == "1fffffffffffff";
    ParseMaxSafeInteger();
    IntNumberFromHexStringValue("0x1fffffffffffff");
  }

}

=== FILE: optional.dfy ===
/** Failure-carrying wrappers shared by every module of the model. */
module Optional {

  /** A value that may be absent: JavaScript's `null`/`undefined` on one side. */
  datatype Option<+T> = None | Some(value: T)

  /** Either a value or the error a JavaScript function would have thrown. */
  datatype Result<+T, +E> = Success(value: T) | Failure(error: E)

  /** The value stored under `k`, as `getItem` reports it (`null` when absent). */
  function Lookup<K, V>(m: map<K, V>, k: K): (r: Option<V>)
    ensures r.Some? <==> k in m
    ensures r.Some? ==> r.value == m[k]
  {
    if k in m then Some(m[k]) else None
  }
}

/** The JSON values that travel inside messages; their structure is never inspected. */
module JsonValues {

  datatype Json =
    | Null
    | Bool(b: bool)
    | Number(n: int)
    | Str(s: string)
    | Array(items: seq<Json>)
    | Object(fields: seq<(string, Json)>)
}

=== FILE: qrurl.dfy ===
/**
 * `createQrUrl` of the wallet SDK's core utilities, as
 * packages/wallet-sdk/src/core/util.test.ts pins it: the link the wallet
 * scans, `<server>/#/link?<query>`, whose query carries the session id,
 * the secret, the server, the version and the chain id.
 *
 * Keys and values are percent-encoded (section 2.1 of RFC 3986): every
 * character outside the unreserved set of section 2.3 becomes the `%XX`
 * escapes of its UTF-8 bytes. A reader of the query (`ParseQuery`) splits
 * it on `&` and `=` and decodes the escapes; the round-trip lemmas show the
 * link always reads back to the bytes of the five fields.
 */
module QrUrl {
  import opened Optional
  import HexUtil

  type Byte = b: int | 0 <= b < 256

  /** The unreserved characters of section 2.3 of RFC 3986. */
  predicate Unreserved(c: char) {
    'A' <= c <= 'Z' || 'a' <= c <= 'z' || '0' <= c <= '9' || c == '-' || c == '.' || c == '_' || c == '~'
  }

  predicate AllUnreserved(s: string) {
    forall i :: 0 <= i < |s| ==> Unreserved(s[i])
  }

  /** The UTF-8 encoding of one Unicode scalar value. */
  function Utf8(c: char): (bs: seq<Byte>)
    ensures 1 <= |bs| <= 4
    ensures c as int < 0x80 <==> |bs| == 1
    ensures |bs| == 1 ==> bs[0] == c as int
    ensures |bs| > 1 ==> bs[0] >= 0xC0 && forall i :: 1 <= i < |bs| ==> 0x80 <= bs[i] < 0xC0
  {
    var cp := c as int;
    if cp < 0x80 then [cp]
    else if cp < 0x800 then [0xC0 + cp / 64, 0x80 + cp % 64]
    else if cp < 0x10000 then [0xE0 + cp / 4096, 0x80 + (cp / 64) % 64, 0x80 + cp % 64]
    else [0xF0 + cp / 262144, 0x80 + (cp / 4096) % 64, 0x80 + (cp / 64) % 64, 0x80 + cp % 64]
  }

  /** The code point a UTF-8 sequence of one to four bytes denotes. */
  function Utf8Value(bs: seq<Byte>): int
    requires 1 <= |bs| <= 4
  {
    var b: seq<int> := bs;
    if |b| == 1 then b[0]
    else if |b| == 2 then (b[0] - 0xC0) * 64 + (b[1] - 0x80)
    else if |b| == 3 then (b[0] - 0xE0) * 4096 + (b[1] - 0x80) * 64 + (b[2] - 0x80)
    else (b[0] - 0xF0) * 262144 + (b[1] - 0x80) * 4096 + (b[2] - 0x80) * 64 + (b[3] - 0x80)
  }

  /** The bytes of a character decode back to it. */
  lemma Utf8Decodes(c: char)
    ensures Utf8Value(Utf8(c)) == c as int
  {
    var cp := c as int;
    if cp >= 0x800 {
      SixBitGroups(cp);
    }
  }

  /** A number split into groups of six bits, from the lowest up. */
  lemma SixBitGroups(x: nat)
    ensures x / 4096 == (x / 64) / 64 && x / 262144 == ((x / 64) / 64) / 64
    ensures x == (x / 4096) * 4096 + ((x / 64) % 64) * 64 + x % 64
    ensures x == (x / 262144) * 262144 + ((x / 4096) % 64) * 4096 + ((x / 64) % 64) * 64 + x % 64
  {
    var a := x / 64;
    var b := a / 64;
    var c := b / 64;
    assert x == a * 64 + x % 64;
    assert a == b * 64 + a % 64;
    assert b == c * 64 + b % 64;
    assert x == b * 4096 + (a % 64) * 64 + x % 64;
    assert x == c * 262144 + (b % 64) * 4096 + (a % 64) * 64 + x % 64;
  }

  function Utf8String(s: string): seq<Byte> {
    if s == [] then [] else Utf8(s[0]) + Utf8String(s[1..])
  }

  /** The upper-case digit of a value below 16. */
  function UpperDigit(d: nat): (c: char)
    requires d < 16
    ensures Unreserved(c) && HexUtil.IsHexDigit(c) && HexUtil.DigitValue(c) == d
  {
    "0123456789ABCDEF"[d]
  }

  /** `%XX` for one byte. */
  function PercentByte(b: Byte): string {
    ['%', UpperDigit(b / 16), UpperDigit(b % 16)]
  }

  function PercentBytes(bs: seq<Byte>): (r: string)
    ensures |r| == 3 * |bs|
  {
    if bs == [] then [] else PercentByte(bs[0]) + PercentBytes(bs[1..])
  }

  function EncodeChar(c: char): (r: string)
    ensures |r| >= 1
    ensures |r| == 1 <==> Unreserved(c)
  {
    if Unreserved(c) then [c] else PercentBytes(Utf8(c))
  }

  /** Percent-encoding of a string, character by character. */
  function PercentEncode(s: string): (r: string)
    ensures |r| >= |s|
    ensures |r| == |s| <==> AllUnreserved(s)
  {
    if s == [] then [] else EncodeChar(s[0]) + PercentEncode(s[1..])
  }

  function Prepend(bs: seq<Byte>, o: Option<seq<Byte>>): Option<seq<Byte>> {
    if o.Some? then Some(bs + o.value) else None
  }

  /** Percent-decoding to bytes; a malformed escape or a non-ASCII character is rejected. */
  function PercentDecode(s: string): Option<seq<Byte>>
    decreases |s|
  {
    if s == [] then Some([])
    else if s[0] == '%' then
      if |s| >= 3 && HexUtil.IsHexDigit(s[1]) && HexUtil.IsHexDigit(s[2]) then
        Prepend([HexUtil.DigitValue(s[1]) * 16 + HexUtil.DigitValue(s[2])], PercentDecode(s[3..]))
      else None
    else if s[0] as int < 0x80 then Prepend([s[0] as int], PercentDecode(s[1..]))
    else None
  }

  lemma DecodeEscape(b: Byte, tail: string)
    ensures PercentDecode(PercentByte(b) + tail) == Prepend([b], PercentDecode(tail))
  {
    var s := PercentByte(b) + tail;
    assert s[0] == '%' && s[1] == UpperDigit(b / 16) && s[2] == UpperDigit(b % 16);
    assert s[3..] == tail;
  }

  lemma PrependTwice(a: seq<Byte>, b: seq<Byte>, o: Option<seq<Byte>>)
    ensures Prepend(a, Prepend(b, o)) == Prepend(a + b, o)
  {
    if o.Some? {
      assert a + (b + o.value) == (a + b) + o.value;
    }
  }

  lemma {:induction false} DecodePercentBytes(bs: seq<Byte>, rest: string)
    ensures PercentDecode(PercentBytes(bs) + rest) == Prepend(bs, PercentDecode(rest))
  {
    if bs == [] {
      assert PercentBytes(bs) + rest == rest;
      var d := PercentDecode(rest);
      if d.Some? {
        assert bs + d.value == d.value;
      }
    } else {
      var tail := PercentBytes(bs[1..]) + rest;
      assert PercentBytes(bs) + rest == PercentByte(bs[0]) + tail;
      DecodeEscape(bs[0], tail);
      DecodePercentBytes(bs[1..], rest);
      PrependTwice([bs[0]], bs[1..], PercentDecode(rest));
      assert [bs[0]] + bs[1..] == bs;
    }
  }

  lemma {:induction false} DecodeEncodeChar(c: char, rest: string)
    ensures PercentDecode(EncodeChar(c) + rest) == Prepend(Utf8(c), PercentDecode(rest))
  {
    if Unreserved(c) {
      assert (EncodeChar(c) + rest)[1..] == rest;
    } else {
      DecodePercentBytes(Utf8(c), rest);
    }
  }

  /** Decoding an encoded string gives its UTF-8 bytes. */
  lemma {:induction false} DecodeEncode(s: string)
    ensures PercentDecode(PercentEncode(s)) == Some(Utf8String(s))
  {
    if s != [] {
      DecodeEncodeChar(s[0], PercentEncode(s[1..]));
      DecodeEncode(s[1..]);
    }
  }

  /** A string of unreserved characters is its own encoding. */
  lemma {:induction false} EncodeUnreserved(s: string)
    requires AllUnreserved(s)
    ensures PercentEncode(s) == s
  {
    if s != [] {
      EncodeUnreserved(s[1..]);
    }
  }

  lemma {:induction false} EncodeAppend(a: string, b: string)
    ensures PercentEncode(a + b) == PercentEncode(a) + PercentEncode(b)
  {
    if a == [] {
      assert a + b == b;
    } else {
      assert (a + b)[0] == a[0];
      assert (a + b)[1..] == a[1..] + b;
      EncodeAppend(a[1..], b);
    }
  }

  /** The position of the first `c` in `s`. */
  function IndexOf(s: string, c: char): (i: nat)
    requires c in s
    ensures i < |s| && s[i] == c && c !in s[..i]
  {
    if s[0] == c then 0 else 1 + IndexOf(s[1..], c)
  }

  /** `String.prototype.split` on one character. */
  function Split(s: string, sep: char): (r: seq<string>)
    ensures |r| >= 1
    ensures forall i :: 0 <= i < |r| ==> sep !in r[i]
    decreases |s|
  {
    if sep !in s then [s]
    else
      var i := IndexOf(s, sep);
      [s[..i]] + Split(s[i + 1..], sep)
  }

  lemma IndexOfJoin(a: string, sep: char, b: string)
    requires sep !in a
    ensures IndexOf(a + [sep] + b, sep) == |a|
  {
    var s := a + [sep] + b;
    assert s[|a|] == sep;
    assert s[..|a|] == a;
  }

  lemma SplitJoin(a: string, sep: char, b: string)
    requires sep !in a
    ensures Split(a + [sep] + b, sep) == [a] + Split(b, sep)
  {
    var s := a + [sep] + b;
    IndexOfJoin(a, sep, b);
    assert s[..|a|] == a;
    assert s[|a| + 1..] == b;
  }

  /** One `key=value` pair, both sides encoded. */
  function Param(p: (string, string)): string {
    PercentEncode(p.0) + "=" + PercentEncode(p.1)
  }

  /** The query string of a list of pairs, in order. */
  function Query(ps: seq<(string, string)>): string {
    if ps == [] then ""
    else if |ps| == 1 then Param(ps[0])
    else Param(ps[0]) + "&" + Query(ps[1..])
  }

  /** Reads one `key=value` pair back to the bytes of key and value. */
  function ParseParam(s: string): Option<(seq<Byte>, seq<Byte>)> {
    if '=' !in s then None
    else
      var i := IndexOf(s, '=');
      match (PercentDecode(s[..i]), PercentDecode(s[i + 1..]))
      case (Some(k), Some(v)) => Some((k, v))
      case _ => None
  }

  function ParseParams(parts: seq<string>): Option<seq<(seq<Byte>, seq<Byte>)>> {
    if parts == [] then Some([])
    else
      match (ParseParam(parts[0]), ParseParams(parts[1..]))
      case (Some(p), Some(rest)) => Some([p] + rest)
      case _ => None
  }

  /** Reads a query string back to the bytes of its pairs. */
  function ParseQuery(q: string): Option<seq<(seq<Byte>, seq<Byte>)>> {
    ParseParams(Split(q, '&'))
  }

  /** The bytes a pair should read back as. */
  function PairBytes(p: (string, string)): (seq<Byte>, seq<Byte>) {
    (Utf8String(p.0), Utf8String(p.1))
  }

  function AllPairBytes(ps: seq<(string, string)>): seq<(seq<Byte>, seq<Byte>)> {
    if ps == [] then [] else [PairBytes(ps[0])] + AllPairBytes(ps[1..])
  }

  /** A character or string made of unreserved characters and `%` only. */
  predicate UrlSafe(s: string) {
    forall i :: 0 <= i < |s| ==> Unreserved(s[i]) || s[i] == '%'
  }

  lemma SafeAppend(a: string, b: string)
    requires UrlSafe(a) && UrlSafe(b)
    ensures UrlSafe(a + b)
  {
  }

  lemma {:induction false} PercentBytesSafe(bs: seq<Byte>)
    ensures UrlSafe(PercentBytes(bs))
  {
    if bs != [] {
      PercentBytesSafe(bs[1..]);
      SafeAppend(PercentByte(bs[0]), PercentBytes(bs[1..]));
    }
  }

  /** Only unreserved characters and escapes remain after encoding. */
  lemma {:induction false} EncodedIsSafe(s: string)
    ensures UrlSafe(PercentEncode(s))
  {
    if s != [] {
      if !Unreserved(s[0]) {
        PercentBytesSafe(Utf8(s[0]));
      }
      EncodedIsSafe(s[1..]);
      SafeAppend(EncodeChar(s[0]), PercentEncode(s[1..]));
    }
  }

  /** An encoded string holds neither of the query's delimiters. */
  lemma NoDelimiters(s: string)
    ensures '&' !in PercentEncode(s) && '=' !in PercentEncode(s)
  {
    EncodedIsSafe(s);
  }

  lemma ParamRoundTrip(p: (string, string))
    ensures '&' !in Param(p)
    ensures ParseParam(Param(p)) == Some(PairBytes(p))
  {
    var k := PercentEncode(p.0);
    var v := PercentEncode(p.1);
    NoDelimiters(p.0);
    NoDelimiters(p.1);
    var s := Param(p);
    assert s == k + ['='] + v;
    IndexOfJoin(k, '=', v);
    assert s[..|k|] == k;
    assert s[|k| + 1..] == v;
    DecodeEncode(p.0);
    DecodeEncode(p.1);
  }

  /** The encoded pairs of a list, in order. */
  function Params(ps: seq<(string, string)>): seq<string> {
    if ps == [] then [] else [Param(ps[0])] + Params(ps[1..])
  }

  lemma {:induction false} SplitQuery(ps: seq<(string, string)>)
    requires |ps| > 0
    ensures Split(Query(ps), '&') == Params(ps)
  {
    ParamRoundTrip(ps[0]);
    if |ps| > 1 {
      SplitQuery(ps[1..]);
      assert Query(ps) == Param(ps[0]) + ['&'] + Query(ps[1..]);
      SplitJoin(Param(ps[0]), '&', Query(ps[1..]));
    } else {
      assert Params(ps[1..]) == [];
    }
  }

  lemma {:induction false} ParseParamsRoundTrip(ps: seq<(string, string)>)
    ensures ParseParams(Params(ps)) == Some(AllPairBytes(ps))
  {
    if ps != [] {
      ParamRoundTrip(ps[0]);
      ParseParamsRoundTrip(ps[1..]);
      assert Params(ps)[1..] == Params(ps[1..]);
    }
  }

  /** A non-empty query reads back to the bytes of its pairs, in order. */
  lemma {:induction false} QueryRoundTrip(ps: seq<(string, string)>)
    requires |ps| > 0
    ensures ParseQuery(Query(ps)) == Some(AllPairBytes(ps))
  {
    SplitQuery(ps);
    ParseParamsRoundTrip(ps);
  }

  const LinkPath := "/#/link?"

  /** The session-id key: `parent-id` for a parent connection, `id` otherwise. */
  function SessionIdKey(isParentConnection: bool): string {
    if isParentConnection then "parent-id" else "id"
  }

  /** The five query pairs of the link, in order. */
  function QrParams(sessionId: string, sessionSecret: string, serverUrl: string,
                    isParentConnection: bool, version: string, chainId: nat): seq<(string, string)> {
    [ (SessionIdKey(isParentConnection), sessionId), ("secret", sessionSecret),
      ("server", serverUrl), ("v", version), ("chainId", HexUtil.Decimal(chainId)) ]
  }

  /** `createQrUrl`. */
  function CreateQrUrl(sessionId: string, sessionSecret: string, serverUrl: string,
                       isParentConnection: bool, version: string, chainId: nat): (url: string)
    ensures |url| > |serverUrl| + |LinkPath|
    ensures url[..|serverUrl|] == serverUrl
    ensures url[|serverUrl|..|serverUrl| + |LinkPath|] == LinkPath
  {
    serverUrl + LinkPath + Query(QrParams(sessionId, sessionSecret, serverUrl, isParentConnection, version, chainId))
  }

  lemma AllPairBytesOfFive(ps: seq<(string, string)>)
    requires |ps| == 5
    ensures AllPairBytes(ps) == [PairBytes(ps[0]), PairBytes(ps[1]), PairBytes(ps[2]), PairBytes(ps[3]), PairBytes(ps[4])]
  {
    assert AllPairBytes(ps[5..]) == [];
    assert AllPairBytes(ps[4..]) == [PairBytes(ps[4])];
    assert AllPairBytes(ps[3..]) == [PairBytes(ps[3]), PairBytes(ps[4])];
    assert AllPairBytes(ps[2..]) == [PairBytes(ps[2]), PairBytes(ps[3]), PairBytes(ps[4])];
    assert AllPairBytes(ps[1..]) == [PairBytes(ps[1]), PairBytes(ps[2]), PairBytes(ps[3]), PairBytes(ps[4])];
  }

  /**
   * The query of the link reads back to the five fields, the first under
   * `parent-id` exactly for a parent connection.
   */
  lemma {:induction false} QrUrlReadsBack(sessionId: string, sessionSecret: string, serverUrl: string,
                       isParentConnection: bool, version: string, chainId: nat)
    ensures var url := CreateQrUrl(sessionId, sessionSecret, serverUrl, isParentConnection, version, chainId);
      ParseQuery(url[|serverUrl| + |LinkPath|..]) == Some([
        (Utf8String(SessionIdKey(isParentConnection)), Utf8String(sessionId)),
        (Utf8String("secret"), Utf8String(sessionSecret)),
        (Utf8String("server"), Utf8String(serverUrl)),
        (Utf8String("v"), Utf8String(version)),
        (Utf8String("chainId"), Utf8String(HexUtil.Decimal(chainId)))])
  {
    var ps := QrParams(sessionId, sessionSecret, serverUrl, isParentConnection, version, chainId);
    var url := CreateQrUrl(sessionId, sessionSecret, serverUrl, isParentConnection, version, chainId);
    assert url[|serverUrl| + |LinkPath|..] == Query(ps);
    QueryRoundTrip(ps);
    AllPairBytesOfFive(ps);
  }

  /** The session id, secret and server of the test suite. */
  const TestId := "1dc7878268586cbcaf041c6817d446d3"
  const TestSecret := "b9a1d5933eae7064fc6e1a673235f648"
  const TestServer := "https" + "://" + "www.walletlink.org"
  const TestServerEncoded := "https" + "%3A%2F%2F" + "www.walletlink.org"

  lemma EncodeSchemeSeparator()
    ensures PercentEncode("://") == "%3A%2F%2F"
  {
    assert Utf8(':') == [58];
    assert Utf8('/') == [47];
    assert PercentBytes([58]) == "%3A";
    assert PercentBytes([47]) == "%2F";
    assert "://"[1..] == "//";
    assert "//"[1..] == "/";
    assert "/"[1..] == "";
    assert PercentEncode("/") == "%2F";
    assert PercentEncode("//") == "%2F" + "%2F";
  }

  /** A URL `scheme://host` with unreserved scheme and host is encoded around the separator. */
  lemma EncodeSchemeHost(scheme: string, host: string)
    requires AllUnreserved(scheme) && AllUnreserved(host)
    ensures PercentEncode(scheme + "://" + host) == scheme + "%3A%2F%2F" + host
  {
    EncodeUnreserved(scheme);
    EncodeUnreserved(host);
    EncodeSchemeSeparator();
    EncodeAppend(scheme, "://");
    EncodeAppend(scheme + "://", host);
  }

  lemma EncodeTestServer()
    ensures PercentEncode(TestServer) == TestServerEncoded
  {
    EncodeSchemeHost("https", "www.walletlink.org");
  }

  lemma EncodeTestId()
    ensures PercentEncode(TestId) == TestId
  {
    EncodeUnreserved(TestId);
  }

  lemma EncodeTestSecret()
    ensures PercentEncode(TestSecret) == TestSecret
  {
    EncodeUnreserved(TestSecret);
  }

  lemma EncodeSessionIdKey(isParentConnection: bool)
    ensures PercentEncode(SessionIdKey(isParentConnection)) == SessionIdKey(isParentConnection)
  {
    EncodeUnreserved(SessionIdKey(isParentConnection));
  }

  lemma EncodeSecretServerKeys()
    ensures PercentEncode("secret") == "secret" && PercentEncode("server") == "server"
  {
    EncodeUnreserved("secret");
    EncodeUnreserved("server");
  }

  lemma EncodeVersionChainKeys()
    ensures PercentEncode("v") == "v" && PercentEncode("chainId") == "chainId" && PercentEncode("1") == "1"
  {
    EncodeUnreserved("v");
    EncodeUnreserved("chainId");
    EncodeUnreserved("1");
  }

  lemma QueryCons(ps: seq<(string, string)>)
    requires |ps| >= 2
    ensures Query(ps) == Param(ps[0]) + "&" + Query(ps[1..])
  {
  }

  /** The query of five pairs, written out. */
  lemma QueryOfFive(ps: seq<(string, string)>)
    requires |ps| == 5
    ensures Query(ps) == Param(ps[0]) + "&" + (Param(ps[1]) + "&" + (Param(ps[2]) + "&"
      + (Param(ps[3]) + "&" + Param(ps[4]))))
  {
    QueryCons(ps);
    QueryCons(ps[1..]);
    assert ps[1..][1..] == ps[2..];
    QueryCons(ps[2..]);
    assert ps[2..][1..] == ps[3..];
    QueryCons(ps[3..]);
    assert ps[3..][1..] == ps[4..];
  }

  /** The query of a link whose fields need no escapes but the server's. */
  lemma {:induction false} PlainQuery(id: string, secret: string, server: string, serverEncoded: string,
                   isParentConnection: bool, version: string, chainId: nat)
    requires PercentEncode(id) == id && PercentEncode(secret) == secret
    requires PercentEncode(server) == serverEncoded
    requires PercentEncode(version) == version && PercentEncode(HexUtil.Decimal(chainId)) == HexUtil.Decimal(chainId)
    ensures Query(QrParams(id, secret, server, isParentConnection, version, chainId))
         == SessionIdKey(isParentConnection) + "=" + id
            + "&" + ("secret" + "=" + secret
            + "&" + ("server" + "=" + serverEncoded
            + "&" + ("v" + "=" + version
            + "&" + ("chainId" + "=" + HexUtil.Decimal(chainId)))))
  {
    var ps := QrParams(id, secret, server, isParentConnection, version, chainId);
    QueryOfFive(ps);
    EncodeSessionIdKey(isParentConnection);
    EncodeSecretServerKeys();
    EncodeVersionChainKeys();
  }

  lemma DecimalOne()
    ensures HexUtil.Decimal(1) == "1"
  {
  }

  /** The query of the test suite's links. */
  lemma TestQuery(isParentConnection: bool)
    ensures Query(QrParams(TestId, TestSecret, TestServer, isParentConnection, "1", 1))
         == SessionIdKey(isParentConnection) + "=" + TestId
            + "&" + ("secret" + "=" + TestSecret
            + "&" + ("server" + "=" + TestServerEncoded
            + "&" + ("v" + "=" + "1"
            + "&" + ("chainId" + "=" + "1"))))
  {
    EncodeTestId();
    EncodeTestSecret();
    EncodeTestServer();
    EncodeVersionChainKeys();
    DecimalOne();
    PlainQuery(TestId, TestSecret, TestServer, TestServerEncoded, isParentConnection, "1", 1);
  }

  /** The two links of the test suite, for a plain and for a parent connection. */
  lemma CreateQrUrlExamples(isParentConnection: bool)
    ensures CreateQrUrl(TestId, TestSecret, TestServer, isParentConnection, "1", 1)
         == TestServer + "/#/link?" + (SessionIdKey(isParentConnection) + "=" + TestId
            + "&" + ("secret" + "=" + TestSecret
            + "&" + ("server" + "=" + TestServerEncoded
            + "&" + ("v" + "=" + "1"
            + "&" + ("chainId" + "=" + "1")))))
  {
    TestQuery(isParentConnection);
  }
}

=== FILE: session.dfy ===
/**
 * The WalletLink session: an id, a secret, the key derived from both, and a
 * `linked` flag, persisted in a string-keyed store (js/src/Session.ts).
 *
 * The store is a `map<string, string>`; every operation that writes it
 * returns the new store. The SHA-256 digest is a parameter `hash`, and the
 * random bytes the constructor draws are parameters too.
 */
module Session {
  import opened Optional
  import HexUtil

  /** The store's keys (Session.ts lines 10-12). */
  const KeyId := "session:id"
  const KeySecret := "session:secret"
  const KeyLinked := "session:linked"

  type Storage = map<string, string>

  /** The hex digest of a string; SHA-256 in the source, uninterpreted here. */
  type Hash = string -> string

  datatype Session = Session(id: string, secret: string, key: string, linked: bool)

  /** The string that is hashed to obtain a session's key. */
  function KeyMaterial(id: string, secret: string): (m: string)
    ensures |m| == |id| + |secret| + 13
    ensures m[..|id|] == id && m[|id|..|id| + 2] == ", "
    ensures m[|id| + 2..|m| - 11] == secret && m[|m| - 11..] == " WalletLink"
  {
    id + ", " + secret + " WalletLink"
  }

  function DeriveKey(hash: Hash, id: string, secret: string): string {
    hash(KeyMaterial(id, secret))
  }

  /** The session's key is the one its id and secret determine. */
  predicate KeyIsDerived(hash: Hash, s: Session) {
    s.key == DeriveKey(hash, s.id, s.secret)
  }

  /** A session the constructor can produce: derived key, non-empty id and secret. */
  predicate Valid(hash: Hash, s: Session) {
    KeyIsDerived(hash, s) && s.id != "" && s.secret != ""
  }

  /** What `crypto.randomBytes(n).toString("hex")` yields: 2n lower-case hex digits. */
  predicate IsRandomHex(s: string, bytes: nat) {
    |s| == 2 * bytes && forall i :: 0 <= i < |s| ==> HexUtil.IsLowerHexDigit(s[i])
  }

  /** JavaScript truthiness of an optional string: present and non-empty. */
  predicate Truthy(o: Option<string>) {
    o.Some? && o.value != ""
  }

  /** `a || b` for an optional string. */
  function OrElse(a: Option<string>, b: string): string {
    if Truthy(a) then a.value else b
  }

  /**
   * The constructor. A truthy `id` or `secret` is used as given, otherwise the
   * random value stands in; `linked` is `!!linked`.
   */
  function New(hash: Hash, id: Option<string>, secret: Option<string>, linked: Option<bool>,
               randomId: string, randomSecret: string): (s: Session)
    requires IsRandomHex(randomId, 16) && IsRandomHex(randomSecret, 32)
    ensures Valid(hash, s)
    ensures Truthy(id) ==> s.id == id.value
    ensures !Truthy(id) ==> s.id == randomId
    ensures Truthy(secret) ==> s.secret == secret.value
    ensures !Truthy(secret) ==> s.secret == randomSecret
    ensures s.linked <==> linked == Some(true)
  {
    var i := OrElse(id, randomId);
    var sec := OrElse(secret, randomSecret);
    Session(i, sec, DeriveKey(hash, i, sec), linked == Some(true))
  }

  /** Two sessions built from the same id and secret carry the same key. */
  lemma KeyDeterministic(hash: Hash, s1: Session, s2: Session)
    requires KeyIsDerived(hash, s1) && KeyIsDerived(hash, s2)
    requires s1.id == s2.id && s1.secret == s2.secret
    ensures s1.key == s2.key
  {
  }

  /**
   * The key material determines the id and the secret as long as the id
   * contains no comma, as every hex id does.
   */
  lemma {:induction false} KeyMaterialInjective(id1: string, secret1: string, id2: string, secret2: string)
    requires ',' !in id1 && ',' !in id2
    requires KeyMaterial(id1, secret1) == KeyMaterial(id2, secret2)
    ensures id1 == id2 && secret1 == secret2
  {
    KeyMaterialSplit(id1, secret1);
    KeyMaterialSplit(id2, secret2);
    var m := KeyMaterial(id1, secret1);
    assert id1 == m[..|id1|] == id2;
    assert secret1 == m[|id1| + 2..|m| - 11] == secret2;
  }

  /** In the key material of a comma-free id, the first comma ends the id. */
  lemma KeyMaterialSplit(id: string, secret: string)
    requires ',' !in id
    ensures FirstComma(KeyMaterial(id, secret)) == |id|
  {
    assert KeyMaterial(id, secret) == id + (", " + secret + " WalletLink");
    FirstCommaAt(id, ", " + secret + " WalletLink");
  }

  /** The first comma of `a + b` is at `|a|` when `a` has none and `b` starts with one. */
  lemma {:induction false} FirstCommaAt(a: string, b: string)
    requires ',' !in a && |b| > 0 && b[0] == ','
    ensures FirstComma(a + b) == |a|
  {
    if a != [] {
      assert (a + b)[1..] == a[1..] + b;
      FirstCommaAt(a[1..], b);
    }
  }

  function FirstComma(s: string): nat
    ensures FirstComma(s) <= |s|
  {
    if s == [] || s[0] == ',' then 0 else 1 + FirstComma(s[1..])
  }

  /** Without the no-comma condition two different sessions share key material. */
  lemma KeyMaterialAmbiguous()
    ensures KeyMaterial("a, b", "c") == KeyMaterial("a", "b, c")
  {
  }

  /** The value `persistLinked` writes for a flag. */
  function LinkedFlag(linked: bool): string {
    if linked then "1" else "0"
  }

  /** `Session.load`: a session exactly when a truthy id and secret are stored. */
  function Load(hash: Hash, st: Storage): (r: Option<Session>)
    ensures r.Some? <==> Truthy(Lookup(st, KeyId)) && Truthy(Lookup(st, KeySecret))
    ensures r.Some? ==> Valid(hash, r.value)
    ensures r.Some? ==> r.value.id == st[KeyId] && r.value.secret == st[KeySecret]
    ensures r.Some? ==> (r.value.linked <==> KeyLinked in st && st[KeyLinked] == "1")
  {
    if KeyId in st && st[KeyId] != "" && KeySecret in st && st[KeySecret] != "" then
      var id := st[KeyId];
      var secret := st[KeySecret];
      Some(Session(id, secret, DeriveKey(hash, id, secret), Lookup(st, KeyLinked) == Some("1")))
    else
      None
  }

  /** Loading is the constructor applied to the stored values, whatever randomness it is given. */
  lemma LoadIsConstructor(hash: Hash, st: Storage, randomId: string, randomSecret: string)
    requires IsRandomHex(randomId, 16) && IsRandomHex(randomSecret, 32)
    requires Load(hash, st).Some?
    ensures Load(hash, st) ==
      Some(New(hash, Lookup(st, KeyId), Lookup(st, KeySecret),
               Some(Lookup(st, KeyLinked) == Some("1")), randomId, randomSecret))
  {
  }

  /** `Session.clear`: removes the three session entries. */
  function Clear(st: Storage): (r: Storage)
    ensures KeyId !in r && KeySecret !in r && KeyLinked !in r
    ensures forall k :: k != KeyId && k != KeySecret && k != KeyLinked ==>
      (k in r <==> k in st) && (k in r ==> r[k] == st[k])
  {
    st - {KeySecret, KeyId, KeyLinked}
  }

  /** After `clear`, `load` finds nothing. */
  lemma LoadAfterClear(hash: Hash, st: Storage)
    ensures Load(hash, Clear(st)) == None
  {
  }

  /** `persistLinked`: writes the flag under `session:linked` and nothing else. */
  function PersistLinked(s: Session, st: Storage): (r: Storage)
    ensures KeyLinked in r && r[KeyLinked] in {"0", "1"}
    ensures r[KeyLinked] == "1" <==> s.linked
    ensures forall k :: k != KeyLinked ==> (k in r <==> k in st) && (k in r ==> r[k] == st[k])
  {
    st[KeyLinked := LinkedFlag(s.linked)]
  }

  /** `save`: writes id, secret and linked flag, leaving every other entry alone. */
  function Save(s: Session, st: Storage): (r: Storage)
    ensures KeyId in r && r[KeyId] == s.id
    ensures KeySecret in r && r[KeySecret] == s.secret
    ensures KeyLinked in r && r[KeyLinked] in {"0", "1"}
    ensures r[KeyLinked] == "1" <==> s.linked
    ensures forall k :: k != KeyId && k != KeySecret && k != KeyLinked ==>
      (k in r <==> k in st) && (k in r ==> r[k] == st[k])
  {
    PersistLinked(s, st[KeyId := s.id][KeySecret := s.secret])
  }

  /** Saving a session and loading it back gives the same session. */
  lemma LoadAfterSave(hash: Hash, s: Session, st: Storage)
    requires Valid(hash, s)
    ensures Load(hash, Save(s, st)) == Some(s)
  {
  }

  /** The `linked` setter: updates the field and re-persists only the flag. */
  function SetLinked(s: Session, val: bool, st: Storage): (r: (Session, Storage))
    ensures r.0.linked == val
    ensures r.0.id == s.id && r.0.secret == s.secret && r.0.key == s.key
    ensures KeyLinked in r.1 && r.1[KeyLinked] in {"0", "1"}
    ensures r.1[KeyLinked] == "1" <==> val
    ensures forall k :: k != KeyLinked ==> (k in r.1 <==> k in st) && (k in r.1 ==> r.1[k] == st[k])
  {
    var s' := s.(linked := val);
    (s', PersistLinked(s', st))
  }

  /** Once a session is saved, setting `linked` is what a later `load` sees. */
  lemma LoadAfterSetLinked(hash: Hash, s: Session, val: bool, st: Storage)
    requires Valid(hash, s)
    ensures var r := SetLinked(s, val, Save(s, st)); Load(hash, r.1) == Some(r.0)
  {
  }

  /** A `storage` event of the window: the key (absent after `clear()`), old and new values. */
  datatype StorageEvent = StorageEvent(key: Option<string>, oldValue: Option<string>, newValue: Option<string>)

  /** An element of `persistedSessionIdChange$`. */
  datatype IdChange = IdChange(oldValue: Option<string>, newValue: Option<string>)

  /** `v || null`: the empty string becomes null. */
  function NullIfEmpty(v: Option<string>): (r: Option<string>)
    ensures r.Some? <==> Truthy(v)
    ensures r.Some? ==> r == v
  {
    if Truthy(v) then v else None
  }

  predicate IsIdEvent(e: StorageEvent) {
    e.key == Some(KeyId)
  }

  function ToIdChange(e: StorageEvent): IdChange {
    IdChange(NullIfEmpty(e.oldValue), NullIfEmpty(e.newValue))
  }

  /** `persistedSessionIdChange$` over a finite prefix of the event stream. */
  function IdChanges(events: seq<StorageEvent>): (r: seq<IdChange>)
    ensures |r| <= |events|
    ensures forall i :: 0 <= i < |r| ==> r[i].oldValue != Some("") && r[i].newValue != Some("")
  {
    if events == [] then []
    else if IsIdEvent(events[0]) then [ToIdChange(events[0])] + IdChanges(events[1..])
    else IdChanges(events[1..])
  }

  /** The stream is computed event by event: it distributes over concatenation. */
  lemma {:induction false} IdChangesAppend(a: seq<StorageEvent>, b: seq<StorageEvent>)
    ensures IdChanges(a + b) == IdChanges(a) + IdChanges(b)
  {
    if a == [] {
      assert a + b == b;
    } else {
      assert (a + b)[0] == a[0];
      assert (a + b)[1..] == a[1..] + b;
      IdChangesAppend(a[1..], b);
    }
  }

  /** Every element of the stream comes from an event keyed `session:id`. */
  lemma {:induction false} IdChangesSound(events: seq<StorageEvent>, c: IdChange)
    requires c in IdChanges(events)
    ensures exists e :: e in events && IsIdEvent(e) && c == ToIdChange(e)
  {
    if events != [] {
      if IsIdEvent(events[0]) && c == ToIdChange(events[0]) {
      } else {
        IdChangesSound(events[1..], c);
        var e :| e in events[1..] && IsIdEvent(e) && c == ToIdChange(e);
        assert e in events;
      }
    }
  }

  /** Every event keyed `session:id` reaches the stream. */
  lemma {:induction false} IdChangesComplete(events: seq<StorageEvent>, e: StorageEvent)
    requires e in events && IsIdEvent(e)
    ensures ToIdChange(e) in IdChanges(events)
  {
    if events[0] != e {
      IdChangesComplete(events[1..], e);
    }
  }
}
